=== FILE: README.md ===
# fwd-netbox in Dafny

A model of the synchronisation core of fwd-netbox. The tool reads inventory
from Forward Networks through its NQE query API and writes it into NetBox
through NetBox's REST API. The core has three parts:

- `ApiConnector` (`common.py`): one generic HTTP request and the way its
  response becomes a Python value or an exception. It also holds the
  `create_slug` helper.
- `ForwardAPI` (`forward_interface.py`): resolves a network's latest processed
  snapshot. It then pages through an NQE query, 1000 items per page, and
  concatenates the items.
- `NetboxAPI` (`netbox_interface.py`): the listing getters, the map helpers,
  and the two query adapters. It also has the create-or-update calls. These
  match incoming records to existing ones by `name`, PATCH the matches as one
  list, and POST the rest one by one.

The model is built from pure functions over immutable values:

- JSON documents and Python dictionaries are `Values.Value`. `Null` stands for
  both JSON `null` and Python `None`.
- Every Python exception becomes `Failure` of a `Values.Result`, whose `Error`
  says which kind: `KeyError`, `TypeError`, `ValueError`,
  `requests.RequestException`, a body that is not JSON, or a connection
  failure.
- The remote side is a parameter. A `Common.Server` maps each request to the
  response it gets back.
- Every networked operation returns a `Common.Exchange`. This holds the
  requests sent, in order, and the outcome.

Modules and files:

| file | module | models |
|---|---|---|
| `values.dfy` | `Values` | JSON values, subscripting, dictionary lookup, the "last match wins" reference `LastId` |
| `common.dfy` | `Common` | `create_slug`, `ApiConnector._request` and its verb wrappers |
| `pagination.dfy` | `Pagination` | the offset/limit loop of `run_nqe_query` |
| `forward.dfy` | `Forward` | `ForwardAPI` |
| `matching.dfy` | `Matching` | the matching loops of `add_device_list` / `add_interface_list`, with reference definitions |
| `adapters.dfy` | `Adapters` | the map helpers' loops and the two query adapters, with the speed tables |
| `netbox.dfy` | `Netbox` | `NetboxAPI`: getters, create-or-update calls, map helpers and adapters with their requests |

Facts about the code that the model keeps as they are:

- `_request` accepts only GET, POST, PATCH and PUT (`common.py:61-77`); any other verb, `DELETE` included, raises.
- Transport errors from `requests` propagate to the caller; nothing catches them.
- `add_device_list` and `add_interface_list` PATCH the whole update list in one request, with no chunking (`netbox_interface.py:98`, `:125`).
- They read only the first page of the NetBox listing: `get_devices` and `get_interfaces` send one GET with no offset.
- Incoming records are matched to existing ones by exact `name` (`netbox_interface.py:93-94`, `:119-120`). The comparison is case-sensitive, and interfaces are not keyed by `(name, device)`.
- A missing site, port type or speed raises `KeyError` (`netbox_interface.py:167-181`). There is no fallback to "Unknown", "other" or 0.

## Model

| member | source | states |
|---|---|---|
| Values.Index | forward_interface.py:98 | Subscripting a JSON value by a key yields the field exactly when the value is an object holding the key. It raises `KeyError` naming the key when the key is absent, and `TypeError` on a non-object. |
| Values.Lookup | netbox_interface.py:167 | A dictionary lookup succeeds exactly when the key is hashable and present. An unhashable key (list or object) raises `TypeError`; a missing key raises `KeyError` carrying that key. |
| Values.LastId | netbox_interface.py:92-96 | The reference for "last match wins". It is `None` exactly when no entry carries the key under the field. Otherwise it is the id of an entry that carries it and that no later entry does. |
| Values.Iterate | netbox_interface.py:93 | A `for` loop over a value iterates exactly lists, strings and dictionaries, and raises `TypeError` on anything else. A list gives its elements in order, a string its characters (`Values.Chars`) and a dictionary its keys (`Values.Keys`). |
| Values.IterateContents | netbox_interface.py:93 | Iterating a string gives exactly one one-character string per character, in order; iterating a dictionary gives each key once, as a string, and nothing else. |
| Values.Chars | forward_interface.py:124 | Iterating a string gives one one-character string per character, in order. |
| Values.Keys | netbox_interface.py:136 | Iterating a dictionary gives each of its keys exactly once, as strings, and nothing else. |
| Common.CreateSlug | common.py:36-40 | The slug has the name's length. Each blank becomes `-`, each letter A–Z becomes its lower-case form, and every other character is kept in place; so the slug holds no blank and no upper-case letter. |
| Common.SlugIdempotent | common.py:36-40 | Slugging a slug changes nothing. |
| Common.Classify | common.py:79-91 | A status of 400 or more gives `None`, whatever the body. Otherwise: a `Content-Type` of exactly `application/json` gives the decoded body, or raises when that is not JSON; any other content type raises "Unexpected Content type"; no content type gives `None`. No reply at all raises. |
| Common.Send | common.py:54-77 | Sends nothing and raises "Request Method not implemented" exactly when the upper-cased verb is not GET, POST, PATCH or PUT. Otherwise it sends one request: the upper-cased verb, URL = host + path, the connector's headers unless others are given, a body exactly when the verb is not GET. The outcome is that request's classified response. |
| Common.Get | common.py:93-95 | One GET of host + path with no body, carrying the headers given, or the connector's when none are; its classified answer is the outcome. |
| Common.Post | common.py:97-99 | One POST of the payload to host + path, carrying the headers given, or the connector's when none are; its classified answer is the outcome. |
| Common.Patch | common.py:101-103 | One PATCH of the payload to host + path, carrying the headers given, or the connector's when none are; its classified answer is the outcome. |
| Common.Put | common.py:105-107 | One PUT of the payload to host + path, carrying the headers given, or the connector's when none are; its classified answer is the outcome. |
| Common.SendDispatches | common.py:54-74 | For every accepted verb, in any letter case, the generic request is the exchange of the wrapper for its upper-cased form, with the same path, headers and payload (GET drops the payload). |
| Common.SendCaseInsensitive | common.py:56 | Two verbs that upper-case alike give the same exchange, whatever the path, headers and payload. |
| Common.ClassifyNoneIff | common.py:79-91 | A request returns `None` exactly when the status is 400 or more, or there is no content type, or the content type is `application/json` and the body is JSON `null`. |
| Common.ClassifyRaisesIff | common.py:79-91 | A request raises exactly when there is no reply, or a status below 400 comes with a content type that is not exactly `application/json` or with a body that is not JSON. |
| Common.LowerCaseMethodAccepted | common.py:56-70 | Verbs are case-insensitive: sending "patch" is the same exchange as the PATCH wrapper with the connector's headers. |
| Common.DeleteRejected | common.py:75-77 | DELETE is refused before anything is sent. |
| Common.CharsetParameterRejected | common.py:85-90 | A successful reply labelled `application/json; charset=utf-8` raises, because the content type is compared as a whole string. |
| Pagination.Inspect | forward_interface.py:116-124 | The loop stops quietly exactly when the answer is `None`, or an object, list or string that does not contain "items". It reads a page exactly when the answer is an object whose `items` can be iterated, and the page is what iterating it yields: a list's elements, a string's characters or an object's keys. Every other shape raises. |
| Pagination.ReadTotal | forward_interface.py:106-121 | A missing `totalNumItems` counts as 0, an integer total is taken as is, and a boolean compares as 1 or 0. Any other total (`null`, a string, a list or an object) raises `TypeError`, as the comparison `offset < total_items` does for all but `null`. |
| Pagination.Loop | forward_interface.py:106-126 | From a given offset, the i-th request asks for offset + 1000·i. No request is made exactly when the total is known and already reached. A successful result is the concatenation of the requested pages' items, in request order, and every request was answered with a readable page. A request that raises is the last one sent, and its exception is the loop's. |
| Pagination.Prepend | forward_interface.py:115-126 | A page read at an offset, put in front of the rest of the loop from the next offset, keeps the loop's shape: one more request, offsets 1000 apart, the page's items first, and an exception from the rest ending the walk. |
| Pagination.Run | forward_interface.py:101-128 | The first request is always at offset 0 and the i-th at 1000·i. A successful result is the pages' items concatenated in order, every request having been answered with a page. A request that raises is the last one sent and its exception is the query's. |
| Pagination.LaterPagesCount | forward_interface.py:106-125 | After the first page, with every page answered, the loop succeeds after ceil((total − offset)/1000) more requests, and none when the offset is already at the total. |
| Pagination.AllPagesAnswered | forward_interface.py:101-128 | With every page answered and a first-page total of n, the loop succeeds after exactly max(1, ceil(n/1000)) requests. |
| Pagination.MissingPageStops | forward_interface.py:115-118 | A missing page k pages into the loop, below the total, ends it without error after exactly k + 1 requests; the earlier pages' items are kept. |
| Pagination.LaterTotalsIgnored | forward_interface.py:120-121 | The total is read from the first page only. Once it is known, two servers whose pages read alike give the same requests and result, whatever totals their later pages report. |
| Pagination.MissingFirstPage | forward_interface.py:115-118 | A missing first page gives one request and an empty result, not an error. |
| Pagination.NoDedupNoTruncation | forward_interface.py:120-125 | A first page carrying more items than its reported total, with repeats, is returned whole. Nothing is deduplicated or cut to the total. |
| Forward.NewForwardApi | forward_interface.py:7-28 | The connector gets the host and exactly three headers: `Accept` and `Content-Type` of `application/json`, and the `Authorization` given. The network id and query ids are kept, and `nqe_limit` defaults to 1000. |
| Forward.LatestSnapshot | forward_interface.py:130-139 | One GET of the network's latestProcessed snapshot, for the configured network when none is given. A `None` answer raises "Invalid response"; any other answer or exception is passed on. |
| Forward.SnapshotOn | forward_interface.py:135-139 | The snapshot lookup for a given network sends exactly that one GET. |
| Forward.Show | forward_interface.py:115 | Formatting the snapshot id into the URL succeeds exactly for scalar values. A string is used verbatim, `None` gives "None", booleans "True" and "False", and an integer its decimal text, with a leading "-" when negative. |
| Forward.NatDigits | forward_interface.py:115 | The decimal text of a natural number: digits only, denoting exactly that number, with no leading zero. |
| Forward.SnapshotText | forward_interface.py:98-115 | The snapshot id text is found exactly when the snapshot is an object with an `id` that formats; a string id is used as is, and a missing `id` raises `KeyError("id")`. |
| Forward.GatherIsAnswerItems | forward_interface.py:115-124 | The items the pagination loop gathers from its pages are the items of the answers to the POSTs it sends, in order. |
| Forward.RunNqe | forward_interface.py:94-128 | The snapshot GET always goes first, for the configured network when none is given. A failing or `None` snapshot, or one whose `id` is missing or unformattable, stops the call with nothing else sent and raises accordingly. Otherwise at least one POST follows, and the i-th later request is the POST, with the connector's headers, to `/api/nqe?snapshotId=<id>` of the query at offset 1000·(i−1) and limit 1000. A successful result is the items of those POSTs' answers concatenated in order, every POST having been answered. A POST that raises is the last request sent and its exception is the call's. |
| Forward.QueryOn | forward_interface.py:98-128 | The same requests, result and exception propagation, for an already chosen network id. |
| Forward.QueryPages | forward_interface.py:101-128 | The POST loop on its own: the i-th request is the query at offset 1000·i; a successful result is the answers' items in order with every answer readable; a POST that raises is the last one sent and its exception is the outcome. |
| Forward.RunNqeResolvesSnapshot | forward_interface.py:98 | `run_nqe_query` first sends exactly the request of `get_latest_snapshot` for the same network, and raises its error, with nothing else sent, when that raises. |
| Forward.Collect | forward_interface.py:30-92 | Each `get_*` wrapper sends the snapshot GET of the given network, or of the configured one when it is `None`. Every NQE POST carries the given query id, or the configured one when it is `None`. A successful result is the answers' items in order. |
| Forward.CollectDefaults | forward_interface.py:30-92 | Called with no arguments, a wrapper is `run_nqe_query` of its configured query on the configured network. |
| Forward.CollectExplicit | forward_interface.py:30-92 | Given a network id and a query id that is not `None`, a wrapper is `run_nqe_query` of exactly those. |
| Forward.NqeLimitIgnored | forward_interface.py:102 | The configured `nqe_limit` has no effect on any request or result. |
| Forward.RunNqeAllPages | forward_interface.py:94-128 | For any snapshot answer whose `id` formats as a given text, string or integer, and every page answered, the query succeeds with one snapshot request plus max(1, ceil(total/1000)) page requests, returning the pages' items in order. |
| Matching.CreateList | netbox_interface.py:97 | The create list holds no record with an id. Every final record without an id is in it, and it holds nothing else. |
| Matching.Scan | netbox_interface.py:93-96 | The inner loop over the existing records. Its own contract only says that a record's other fields survive the scan and that it is appended at most once per existing record; the lemmas `Matching.ScanSettles` and `Matching.ScanSucceedsIff` state what it computes and when it raises. |
| Matching.MatchAll | netbox_interface.py:92-96 | The outer loop over the incoming records. Its own contract only says that there is one final record per incoming record; the lemmas `Matching.MatchSucceedsIff` and `Matching.PartitionSettles` state the partition it builds and when it raises. |
| Matching.ScanSettles | netbox_interface.py:93-96 | Scanning one incoming record leaves it with the id of its last match, or unchanged when nothing matches. It is appended once per existing record carrying its name: the multiset count of that name among the existing names. |
| Matching.ScanSucceedsIff | netbox_interface.py:93-95 | The scan of one record raises exactly when there is some existing record while the record has no name, or an existing record lacks a name, or one with an equal name lacks an id. |
| Matching.MatchSucceedsIff | netbox_interface.py:92-96 | The matching loops raise exactly when the scan of some incoming record does. |
| Matching.PartitionSettles | netbox_interface.py:92-96 | After matching, the i-th incoming record is settled: it has the id of its last match, or is unchanged. The update list equals the reference list: each settled record once per matching existing record, in incoming order. |
| Matching.SettledWithoutId | netbox_interface.py:97 | A settled record lacks an id exactly when it arrived without one and no existing record carries its name. |
| Matching.CreateListIsUnmatched | netbox_interface.py:92-97 | The create list equals the incoming records that arrived without an id and that no existing record names, unchanged and in input order. |
| Matching.LastMatchWins | netbox_interface.py:92-96 | Two existing records named sw1, with ids 1 then 2: the incoming sw1 ends with id 2 and appears twice in the update list, both times with id 2. |
| Matching.InterfaceDeviceIgnored | netbox_interface.py:119-123 | Interfaces are matched by name alone. An incoming `eth0` of device 1 takes the id of the existing `eth0` of device 2 and goes to the update list. |
| Matching.PrefilledUnmatchedIsDropped | netbox_interface.py:97 | A record that arrives with an id and matches nothing is neither updated nor created. |
| Adapters.ResultsOf | netbox_interface.py:136 | Iterating `results` succeeds exactly for an object whose `results` is a list, a string or a dictionary. A list gives its elements; a string or dictionary gives strings (its characters or keys). A missing `results` raises `KeyError`, and anything else `TypeError`. |
| Adapters.Fill | netbox_interface.py:136-137 | The loop that fills a map helper's dictionary. Its own contract only says that no key is ever dropped; the lemmas `Adapters.FillLastWins` and `Adapters.FillSucceedsIff` state what it computes and when it raises. |
| Adapters.FillLastWins | netbox_interface.py:136-137 | The filled map has a key exactly when the table had it or some entry carries it. An entry-carried key maps to the id of the last entry carrying it; any other key keeps its old value. |
| Adapters.FillSucceedsIff | netbox_interface.py:136-137 | Filling raises exactly when some entry is not an object with an `id` and a hashable value under the key field. |
| Adapters.BuildMapLastWins | netbox_interface.py:129-138 | A map helper gives the empty map for a `None` listing. Otherwise its domain is exactly the key values the results carry, each mapped to the id of the last result carrying it. |
| Adapters.BuildMapSucceedsIff | netbox_interface.py:133-137 | A map helper's loop succeeds exactly when the listing is `None`, or its `results` is a list of objects each with an `id` and a hashable value under the key field. |
| Adapters.BuildMap | netbox_interface.py:129-138 | A map helper given its listing. Its own contract says that a `None` listing gives the empty map and that an unreadable `results` raises before anything is filled; the lemmas `Adapters.BuildMapLastWins` and `Adapters.BuildMapSucceedsIff` state the map it builds. |
| Adapters.AdaptDevice | netbox_interface.py:167-172 | Adapting one device succeeds exactly when its device type and its site are in the maps; a `None` site is looked up as "Default". The result has type and site replaced by their ids, the configured role added, and every other field kept. A missing `device_type` raises `KeyError`. |
| Adapters.AdaptDevices | netbox_interface.py:166-173 | The device query adapts exactly when every entry does. The result has the query's length, and its i-th record is the adaptation of the i-th entry. |
| Adapters.AdaptInterface | netbox_interface.py:179-181 | Adapting one interface succeeds exactly when its device is in the map and its type and speed are among the three speed names. The result has the device id, port type and integer speed from the tables, and keeps every other field. |
| Adapters.AdaptInterfaces | netbox_interface.py:178-182 | The interface query adapts exactly when every entry does. The result has the query's length, and its i-th record is the adaptation of the i-th entry. |
| Adapters.TenGigInterface | netbox_interface.py:22-31 | SPEED_10GB resolves to port type `10gbase-t` and speed 10000000. |
| Adapters.UnknownDeviceRaises | netbox_interface.py:179 | An interface whose device name is not in the device map raises `KeyError` carrying that name. |
| Adapters.UnknownSpeedRaises | netbox_interface.py:180 | For an interface whose device is known, any hashable `type` outside the port-type table raises `KeyError` carrying that value. |
| Adapters.UnknownRateRaises | netbox_interface.py:181 | For an interface whose device and type are known, any hashable `speed` outside the rate table raises `KeyError` carrying that value. |
| Netbox.NewNetboxApi | netbox_interface.py:8-21 | The connector gets the host and exactly four headers: `Accept` and `Content-Type` of `application/json`, `User-Agent: ForwardNetworks/1.0`, and the `Authorization` given. The configured device role is kept. |
| Netbox.GetListing | netbox_interface.py:33-62 | Each getter sends one GET to its collection's path. Roles, sites and device types pass any answer on, `None` included. Devices and interfaces raise "Received empty response" instead of returning `None`, and pass everything else on. |
| Netbox.PostEach | netbox_interface.py:99-100 | The requests sent are a prefix of the POSTs of the records in order. The loop succeeds exactly when all of them were sent and answered. A POST that raises is the last request sent, and its exception is the loop's. |
| Netbox.AddList | netbox_interface.py:89-100 | A create-or-update call always starts with one GET of its collection. When that GET raises, the call raises the same exception and sends nothing else; likewise any later request that raises is the last one sent and its exception is the call's. |
| Netbox.Upsert | netbox_interface.py:89-100 | A listing without `results`, a `results` that cannot be iterated while there are incoming records, or incoming records the matching cannot read, raise before any write is sent. A write that raises is the last request sent, and its exception is the call's. |
| Netbox.Existing | netbox_interface.py:89-93 | `results` is always subscripted, so a listing without it raises. It is iterated only when there is an incoming record: then the existing records are what iterating it gives; with none, any `results` passes and nothing is matched. |
| Netbox.Write | netbox_interface.py:98-100 | The writes sent are a prefix of one PATCH of the update list followed by one POST per record to create. The call succeeds exactly when all of them were sent and answered, and then returns the settled records. A PATCH or POST that raises is the last request sent, and its exception is the call's. |
| Netbox.UpsertWrites | netbox_interface.py:89-100 | Once the listing's results are read and matching succeeds, the writes are exactly those of the reference partition: the reference update list is PATCHed and the unmatched records are POSTed. |
| Netbox.NothingIncomingStillPatches | netbox_interface.py:89-98 | With no incoming records, a listing that has any `results` at all, list or not, still leads to one PATCH of an empty list and no POST. |
| Netbox.EmptyListingAborts | netbox_interface.py:48-54 | A `None` listing ends a create-or-update call after its GET with "Received empty response". |
| Netbox.AddListFollowsPlan | netbox_interface.py:74-100 | The requests sent are a prefix of the reference plan: the GET, one PATCH of the reference update list, then one POST per record that arrived without an id and matches nothing. The first write that raises is the last request sent and its exception is the call's. The call succeeds exactly when the whole plan is sent and every write answered. Then each incoming record is returned settled with the id of its last match. |
| Netbox.PlanIsGetThenWrites | netbox_interface.py:89-100 | The listing GET followed by the writes actually sent is a prefix of the plan, and the writes succeed exactly when that prefix is the whole plan and every write is answered. |
| Netbox.HelperMap | netbox_interface.py:129-160 | A map helper sends one GET of its listing and passes a failing getter's error on. Given a listing, it succeeds exactly when the listing is buildable, and then maps each key value to the id of the last result carrying it. |
| Netbox.SiteMap | netbox_interface.py:129-138 | One GET of the sites. A `None` answer gives the empty map; otherwise sites are keyed by `name`, the last result with a name giving its id, and the helper raises exactly when a result lacks an `id` or a hashable `name`. |
| Netbox.DeviceTypeMap | netbox_interface.py:140-149 | One GET of the device types, keyed by `model` under the same rules. |
| Netbox.DeviceMap | netbox_interface.py:151-160 | One GET of the devices, keyed by `name` under the same rules, except that a `None` answer raises "Received empty response", so the helper's own empty-map fallback is never reached. |
| Netbox.AdaptDeviceQuery | netbox_interface.py:162-173 | The sites GET goes first; the device types GET follows exactly when the site map was built; nothing else is sent, and either map's error is passed on. The call succeeds exactly when both maps were built and every entry is resolvable against them, and then every entry is adapted with the configured role. |
| Netbox.AdaptInterfaceQuery | netbox_interface.py:175-182 | Exactly one GET of the devices is sent, and the device map's error is passed on. The call succeeds exactly when the map was built and every entry is resolvable against it, and then every entry is adapted. |
| Netbox.InterfaceAdapterNeedsDevices | netbox_interface.py:151-160 | With no device listing (`None`), even an empty interface query raises `ValueError`. |

## Left out

- `export_to_netbox.py` (the command-line driver) and `netbox_form.py` (a standalone Flask app that renders a configuration form and writes `configuration.yaml`) are not part of this model. Neither is `print_variables` in `common.py`, which only logs.
- Logging, the `print(interfaces)` call in `add_interface_list`, timeouts and TLS verification: they do not change any value or request. `timeout` and `ssl_verify` are therefore not carried in the connector.
- JSON encoding of request bodies: a body is the `Value` itself, not its serialised text.
- HTTP is a stateless function from request to response. A server whose answer to the same request changes over time, such as one that sees the PATCH before answering a POST, is not modelled.
- Python's in-place mutation: the adapters and create-or-update calls rewrite the caller's dictionaries. The model returns the rewritten records on success; the state those dictionaries are left in when a call raises halfway is not modelled.
- The return value of `add_device_list` / `add_interface_list`: Python returns `None`. `Netbox.AddList` returns the incoming records as they end up, which is what the caller observes through mutation.
- Pagination.ReadTotal: a `totalNumItems` of `null` raises `TypeError` here. In Python a `null` total leaves the loop re-reading the total on every page, which need not terminate against an arbitrary server.
- Values.Keys: a dictionary's keys are iterated in code-point order, because `Value` objects are maps without an insertion order. Python iterates them in insertion order. This shows only where an object `items` of an NQE page is extended into the result (`forward_interface.py:124`); the other loops over keys raise on the first key whatever it is.
- Forward.Show: a snapshot id that is a list or an object raises here. Python would format its `repr` into the URL. Scalars are formatted as Python does.
- Python's cross-type equality and hashing (`1 == True`, equal hashes of `1` and `True` as dictionary keys) are not modelled: `Int(1)` and `Bool(true)` are distinct values.
- Floating-point numbers are not part of `Value`: the documents the core handles carry integers, strings, booleans and null.
- Common.Send: the verb is upper-cased for ASCII letters only, so a verb such as "poſt", which Python's `upper()` turns into "POST", is rejected here. Unicode case mapping is out of scope.
- Common.CreateSlug: `lower()` is modelled for ASCII letters only, because Unicode case mapping is out of scope.
- The order of keys inside a dictionary is not modelled (`Record` is a `map`); the order of requests and of list elements is.
- The SPEED_100MB speed is 100 while SPEED_1GB and SPEED_10GB are 1000000 and 10000000, which is not one consistent unit. The tables are modelled exactly as the code gives them.

=== FILE: adapters.dfy ===
/**
 The pure parts of `NetboxAPI`'s adapters: building the name-to-id lookup maps
 from a sink listing (`_get_*_map_helper`), and rewriting the fields of the
 records a Forward query returned (`adapt_forward_device_query`,
 `adapt_forward_interface_query`) through those maps and the two static speed
 tables. Module `Netbox` supplies the listings over HTTP.
 */
module Adapters {
  import opened Values

  // ---------------------------------------------------------------------------
  // Sink listings and lookup maps
  // ---------------------------------------------------------------------------

  /**
   `listing["results"]`, iterated: the entries of a sink listing. Subscripting
   raises on anything but a dictionary holding `results`; iterating raises on
   `None`, a boolean or an integer, and yields the characters of a string or the
   keys of a dictionary, which every caller then fails to subscript.
   */
  function ResultsOf(listing: Value): (r: Result<seq<Value>>)
    ensures r.Success? <==> listing.Obj? && "results" in listing.fields &&
                            (listing.fields["results"].List? || listing.fields["results"].Str? || listing.fields["results"].Obj?)
    ensures r.Success? && listing.fields["results"].List? ==> r.value == listing.fields["results"].items
    ensures r.Success? && !listing.fields["results"].List? ==> forall i :: 0 <= i < |r.value| ==> r.value[i].Str?
    ensures r.Success? && listing.fields["results"].Str? ==> r.value == Chars(listing.fields["results"].s)
    ensures r.Success? && listing.fields["results"].Obj? ==> r.value == Keys(listing.fields["results"].fields)
    ensures listing.Obj? && "results" !in listing.fields ==> r == Failure(KeyError(Str("results")))
    ensures r.Failure? && listing.Obj? && "results" in listing.fields ==> r == Failure(TypeMismatch)
    ensures !listing.Obj? ==> r == Failure(TypeMismatch)
  {
    var results :- Index(listing, "results");
    Iterate(results)
  }

  /**
   `for result in entries: table[result[key]] = result["id"]`. Python evaluates
   the right-hand side first, so a missing `id` is reported before a missing key.
   */
  function Fill(table: map<Value, Value>, entries: seq<Value>, key: string): (r: Result<map<Value, Value>>)
    ensures r.Success? ==> forall k :: k in table ==> k in r.value
    decreases |entries|
  {
    if |entries| == 0 then Success(table)
    else
      var id :- Index(entries[0], "id");
      var k :- Index(entries[0], key);
      if !Hashable(k) then Failure(TypeMismatch)
      else Fill(table[k := id], entries[1..], key)
  }

  /** A `_get_*_map_helper` once its listing is in: `None` gives the empty map. */
  function BuildMap(listing: Value, key: string): (r: Result<map<Value, Value>>)
    ensures listing == Null ==> r == Success(map[])
    ensures listing != Null && ResultsOf(listing).Failure? ==> r == Failure(ResultsOf(listing).error)
  {
    if listing == Null then Success(map[])
    else
      var entries :- ResultsOf(listing);
      Fill(map[], entries, key)
  }

  /** Every entry is a record with an `id` and a hashable `key`. */
  ghost predicate Listed(entries: seq<Value>, key: string) {
    forall j :: 0 <= j < |entries| ==>
      && entries[j].Obj? && "id" in entries[j].fields && key in entries[j].fields
      && Hashable(entries[j].fields[key])
  }

  /**
   Filling from `table`: a key is present exactly when it was already there or
   some entry carries it, and it maps to the id of the LAST entry carrying it
   (later duplicates overwrite earlier ones), or to its old value if none does.
   */
  lemma {:induction false} FillLastWins(table: map<Value, Value>, entries: seq<Value>, key: string)
    requires Fill(table, entries, key).Success?
    ensures var m := Fill(table, entries, key).value;
            forall k :: (k in m <==> k in table || LastId(entries, key, k).Some?)
                        && (LastId(entries, key, k).Some? ==> m[k] == LastId(entries, key, k).value)
                        && (LastId(entries, key, k).None? && k in table ==> m[k] == table[k])
    decreases |entries|
  {
    if |entries| > 0 {
      var e := entries[0];
      var k0 := e.fields[key];
      FillLastWins(table[k0 := e.fields["id"]], entries[1..], key);
      forall k
        ensures LastId(entries, key, k) ==
                (if LastId(entries[1..], key, k).Some? then LastId(entries[1..], key, k)
                 else if k == k0 then Some(e.fields["id"]) else None)
      {
      }
    }
  }

  /** Filling raises exactly when some entry is not a record with an `id` and a hashable key. */
  lemma {:induction false} FillSucceedsIff(table: map<Value, Value>, entries: seq<Value>, key: string)
    ensures Fill(table, entries, key).Success? <==> Listed(entries, key)
    decreases |entries|
  {
    if |entries| > 0 {
      var e := entries[0];
      if e.Obj? && "id" in e.fields && key in e.fields && Hashable(e.fields[key]) {
        FillSucceedsIff(table[e.fields[key] := e.fields["id"]], entries[1..], key);
        assert forall j :: 1 <= j < |entries| ==> entries[j] == entries[1..][j - 1];
      }
    }
  }

  /**
   `m` is what a map helper makes of `listing`: empty for `None`; otherwise
   defined on exactly the key values the results carry, each mapped to the id
   of the last result carrying it.
   */
  ghost predicate KeyedByLast(listing: Value, key: string, m: map<Value, Value>) {
    && (listing == Null ==> m == map[])
    && (listing != Null ==>
          && ResultsOf(listing).Success?
          && var entries := ResultsOf(listing).value;
             forall k :: (k in m <==> LastId(entries, key, k).Some?)
                         && (k in m ==> m[k] == LastId(entries, key, k).value))
  }

  /** A listing a map helper can read: `None`, or results that are all records with an `id` and a hashable key. */
  ghost predicate Buildable(listing: Value, key: string) {
    listing == Null || (ResultsOf(listing).Success? && Listed(ResultsOf(listing).value, key))
  }

  /** A map helper keyed on `key` gives the last-wins map of its listing. */
  lemma BuildMapLastWins(listing: Value, key: string)
    requires BuildMap(listing, key).Success?
    ensures KeyedByLast(listing, key, BuildMap(listing, key).value)
  {
    if listing != Null {
      FillLastWins(map[], ResultsOf(listing).value, key);
    }
  }

  /** A map helper raises exactly when its listing is not buildable. */
  lemma BuildMapSucceedsIff(listing: Value, key: string)
    ensures BuildMap(listing, key).Success? <==> Buildable(listing, key)
  {
    if listing != Null && ResultsOf(listing).Success? {
      FillSucceedsIff(map[], ResultsOf(listing).value, key);
    }
  }

  // ---------------------------------------------------------------------------
  // adapt_forward_device_query
  // ---------------------------------------------------------------------------

  /** The site map key for a device's site: `"Default"` stands in for `None`. */
  function SiteKey(site: Value): Value {
    if site == Null then Str("Default") else site
  }

  /** Every lookup the device adapter makes for `entry` succeeds. */
  ghost predicate DeviceResolvable(entry: Record, sites: map<Value, Value>, types: map<Value, Value>) {
    && "device_type" in entry && Hashable(entry["device_type"]) && entry["device_type"] in types
    && "site" in entry && Hashable(SiteKey(entry["site"])) && SiteKey(entry["site"]) in sites
  }

  /**
   `adapted` is `entry` with its device type and site replaced by their ids and
   its role set to the configured one; every other field is as it was.
   */
  ghost predicate DeviceAdapted(entry: Record, adapted: Record,
                                sites: map<Value, Value>, types: map<Value, Value>, role: Value)
    requires DeviceResolvable(entry, sites, types)
  {
    && adapted.Keys == entry.Keys + {"role"}
    && adapted["device_type"] == types[entry["device_type"]]
    && adapted["site"] == sites[SiteKey(entry["site"])]
    && adapted["role"] == role
    && forall k :: k in entry && k != "device_type" && k != "site" && k != "role" ==> adapted[k] == entry[k]
  }

  /** The loop body of `adapt_forward_device_query` for one entry. */
  function AdaptDevice(entry: Record, sites: map<Value, Value>, types: map<Value, Value>, role: Value): (r: Result<Record>)
    ensures r.Success? <==> DeviceResolvable(entry, sites, types)
    ensures r.Success? ==> DeviceAdapted(entry, r.value, sites, types, role)
    ensures "device_type" !in entry ==> r == Failure(KeyError(Str("device_type")))
  {
    var model :- Field(entry, "device_type");
    var typeId :- Lookup(types, model);
    var typed := entry["device_type" := typeId];
    var site :- Field(typed, "site");
    var siteId :- if site != Null then Lookup(sites, site) else Lookup(sites, Str("Default"));
    Success(typed["site" := siteId]["role" := role])
  }

  /**
   `adapt_forward_device_query` once the two maps are built: the entries are
   rewritten in order, and the first failing lookup raises.
   */
  function AdaptDevices(query: seq<Record>, sites: map<Value, Value>, types: map<Value, Value>, role: Value)
    : (r: Result<seq<Record>>)
    ensures r.Success? <==> forall i :: 0 <= i < |query| ==> DeviceResolvable(query[i], sites, types)
    ensures r.Success? ==> |r.value| == |query|
    ensures r.Success? ==> forall i :: 0 <= i < |query| ==> DeviceAdapted(query[i], r.value[i], sites, types, role)
  {
    if |query| == 0 then Success([])
    else
      var first :- AdaptDevice(query[0], sites, types, role);
      var rest :- AdaptDevices(query[1..], sites, types, role);
      assert forall i :: 1 <= i < |query| ==> query[i] == query[1..][i - 1];
      Success([first] + rest)
  }

  // ---------------------------------------------------------------------------
  // adapt_forward_interface_query
  // ---------------------------------------------------------------------------

  /** The port type for each speed enumeration value. */
  const SpeedTypes: map<Value, Value> :=
    map[Str("SPEED_100MB") := Str("100base-tx"),
        Str("SPEED_1GB") := Str("1000base-t"),
        Str("SPEED_10GB") := Str("10gbase-t")]

  /** The integer speed for each speed enumeration value, exactly as the tables give it. */
  const SpeedToInt: map<Value, Value> :=
    map[Str("SPEED_100MB") := Int(100),
        Str("SPEED_1GB") := Int(1000000),
        Str("SPEED_10GB") := Int(10000000)]

  /** Every lookup the interface adapter makes for `entry` succeeds. */
  ghost predicate InterfaceResolvable(entry: Record, devices: map<Value, Value>) {
    && "device" in entry && Hashable(entry["device"]) && entry["device"] in devices
    && "type" in entry && entry["type"] in SpeedTypes
    && "speed" in entry && entry["speed"] in SpeedToInt
  }

  /** `adapted` is `entry` with its device, port type and speed resolved; nothing else changes. */
  ghost predicate InterfaceAdapted(entry: Record, adapted: Record, devices: map<Value, Value>)
    requires InterfaceResolvable(entry, devices)
  {
    && adapted.Keys == entry.Keys
    && adapted["device"] == devices[entry["device"]]
    && adapted["type"] == SpeedTypes[entry["type"]]
    && adapted["speed"] == SpeedToInt[entry["speed"]]
    && forall k :: k in entry && k != "device" && k != "type" && k != "speed" ==> adapted[k] == entry[k]
  }

  /** The loop body of `adapt_forward_interface_query` for one entry. */
  function AdaptInterface(entry: Record, devices: map<Value, Value>): (r: Result<Record>)
    ensures r.Success? <==> InterfaceResolvable(entry, devices)
    ensures r.Success? ==> InterfaceAdapted(entry, r.value, devices)
  {
    var device :- Field(entry, "device");
    var deviceId :- Lookup(devices, device);
    var placed := entry["device" := deviceId];
    var speedName :- Field(placed, "type");
    var portType :- Lookup(SpeedTypes, speedName);
    var typed := placed["type" := portType];
    var speed :- Field(typed, "speed");
    var rate :- Lookup(SpeedToInt, speed);
    Success(typed["speed" := rate])
  }

  /** `adapt_forward_interface_query` once the device map is built. */
  function AdaptInterfaces(query: seq<Record>, devices: map<Value, Value>): (r: Result<seq<Record>>)
    ensures r.Success? <==> forall i :: 0 <= i < |query| ==> InterfaceResolvable(query[i], devices)
    ensures r.Success? ==> |r.value| == |query|
    ensures r.Success? ==> forall i :: 0 <= i < |query| ==> InterfaceAdapted(query[i], r.value[i], devices)
  {
    if |query| == 0 then Success([])
    else
      var first :- AdaptInterface(query[0], devices);
      var rest :- AdaptInterfaces(query[1..], devices);
      assert forall i :: 1 <= i < |query| ==> query[i] == query[1..][i - 1];
      Success([first] + rest)
  }

  /** A 10 Gb/s interface gets port type `10gbase-t` and speed 10000000. */
  lemma TenGigInterface(devices: map<Value, Value>, name: string)
    requires Str(name) in devices
    ensures var entry: Record := map["device" := Str(name), "type" := Str("SPEED_10GB"), "speed" := Str("SPEED_10GB")];
            AdaptInterface(entry, devices) ==
            Success(map["device" := devices[Str(name)], "type" := Str("10gbase-t"), "speed" := Int(10000000)])
  {
    var entry: Record := map["device" := Str(name), "type" := Str("SPEED_10GB"), "speed" := Str("SPEED_10GB")];
    var r := AdaptInterface(entry, devices);
    var expected: Record := map["device" := devices[Str(name)], "type" := Str("10gbase-t"), "speed" := Int(10000000)];
    assert r.Success?;
    assert r.value.Keys == expected.Keys;
    assert forall k | k in expected :: r.value[k] == expected[k];
    assert r.value == expected;
  }

  /** A device the map does not know raises a `KeyError` carrying that device. */
  lemma UnknownDeviceRaises(entry: Record, devices: map<Value, Value>)
    requires "device" in entry && Hashable(entry["device"]) && entry["device"] !in devices
    ensures AdaptInterface(entry, devices) == Failure(KeyError(entry["device"]))
  {
  }

  /** A port type outside the three the table knows raises a `KeyError` carrying that value. */
  lemma UnknownSpeedRaises(entry: Record, devices: map<Value, Value>)
    requires "device" in entry && Hashable(entry["device"]) && entry["device"] in devices
    requires "type" in entry && Hashable(entry["type"]) && entry["type"] !in SpeedTypes
    ensures AdaptInterface(entry, devices) == Failure(KeyError(entry["type"]))
  {
  }

  /** With a known port type, a speed outside the table raises a `KeyError` carrying that value. */
  lemma UnknownRateRaises(entry: Record, devices: map<Value, Value>)
    requires "device" in entry && Hashable(entry["device"]) && entry["device"] in devices
    requires "type" in entry && entry["type"] in SpeedTypes
    requires "speed" in entry && Hashable(entry["speed"]) && entry["speed"] !in SpeedToInt
    ensures AdaptInterface(entry, devices) == Failure(KeyError(entry["speed"]))
  {
  }
}

=== FILE: common.dfy ===
/**
 The shared helpers of `common.py`: the slug function and the generic HTTP
 connector `ApiConnector`. The HTTP library itself is replaced by a `Server`,
 a function from the request that goes out to the response that comes back;
 every operation returns an `Exchange` recording the requests it sent, in
 order, together with its outcome.
 */
module Common {
  import opened Values

  // ---------------------------------------------------------------------------
  // create_slug
  // ---------------------------------------------------------------------------

  predicate IsUpper(c: char) {
    'A' <= c <= 'Z'
  }

  /** `str.lower` on one character, for the ASCII range. */
  function Lower(c: char): (r: char)
    ensures !IsUpper(r)
    ensures IsUpper(c) ==> r as int == c as int + 32
    ensures !IsUpper(c) ==> r == c
  {
    if IsUpper(c) then (c as int + 32) as char else c
  }

  /** `str.upper` on one character, for the ASCII range. */
  function Upper(c: char): char {
    if 'a' <= c <= 'z' then (c as int - 32) as char else c
  }

  function LowerAll(s: string): (r: string)
    ensures |r| == |s|
    ensures forall i :: 0 <= i < |s| ==> r[i] == Lower(s[i])
  {
    if |s| == 0 then "" else [Lower(s[0])] + LowerAll(s[1..])
  }

  function UpperAll(s: string): (r: string)
    ensures |r| == |s|
    ensures forall i :: 0 <= i < |s| ==> r[i] == Upper(s[i])
  {
    if |s| == 0 then "" else [Upper(s[0])] + UpperAll(s[1..])
  }

  /** `str.replace(from, to)` for single characters. */
  function ReplaceChar(s: string, from: char, to: char): (r: string)
    ensures |r| == |s|
    ensures forall i :: 0 <= i < |s| ==> r[i] == (if s[i] == from then to else s[i])
  {
    if |s| == 0 then "" else [if s[0] == from then to else s[0]] + ReplaceChar(s[1..], from, to)
  }

  /** A slug: lower-cased, with every blank turned into a dash. */
  function CreateSlug(name: string): (slug: string)
    ensures |slug| == |name|
    ensures forall i :: 0 <= i < |slug| ==> slug[i] != ' ' && !IsUpper(slug[i])
    ensures forall i :: 0 <= i < |name| && name[i] != ' ' && !IsUpper(name[i]) ==> slug[i] == name[i]
    ensures forall i :: 0 <= i < |name| ==> slug[i] == (if name[i] == ' ' then '-' else Lower(name[i]))
  {
    ReplaceChar(LowerAll(name), ' ', '-')
  }

  /** Slugging a slug changes nothing. */
  lemma SlugIdempotent(name: string)
    ensures CreateSlug(CreateSlug(name)) == CreateSlug(name)
  {
  }

  // ---------------------------------------------------------------------------
  // ApiConnector._request
  // ---------------------------------------------------------------------------

  type Headers = map<string, string>

  /** The request handed to the HTTP library; `body` is the JSON payload, absent for GET. */
  datatype Request = Request(verb: string, url: string, headers: Headers, body: Option<Value>)

  /**
   What the HTTP library hands back: a reply with its status, its Content-Type
   header if any and its body (`None` when the body is not valid JSON), or a
   failure to obtain any reply at all.
   */
  datatype Response =
    | Reply(status: int, contentType: Option<string>, body: Option<Value>)
    | NoReply

  type Server = Request -> Response

  /** The requests an operation sent, in order, and what it returned or raised. */
  datatype Exchange<T> = Exchange(sent: seq<Request>, outcome: Result<T>)

  /**
   Nothing is sent after an exception: a request whose answer raises is the
   last one sent, and its exception is the outcome.
   */
  predicate StopsAtRaise<T>(server: Server, x: Exchange<T>) {
    forall i :: 0 <= i < |x.sent| && Classify(server(x.sent[i])).Failure? ==>
      i == |x.sent| - 1 && x.outcome == Failure(Classify(server(x.sent[i])).error)
  }

  /** Requests answered without raising, sent before an exchange that stops at its first exception, keep it so. */
  lemma StopsAtRaiseAfter<T>(server: Server, first: seq<Request>, rest: Exchange<T>)
    requires forall i :: 0 <= i < |first| ==> Classify(server(first[i])).Success?
    requires StopsAtRaise(server, rest)
    ensures StopsAtRaise(server, Exchange(first + rest.sent, rest.outcome))
  {
    var x := Exchange(first + rest.sent, rest.outcome);
    forall i | 0 <= i < |x.sent| && Classify(server(x.sent[i])).Failure?
      ensures i == |x.sent| - 1 && x.outcome == Failure(Classify(server(x.sent[i])).error)
    {
      assert i >= |first|;
      assert x.sent[i] == rest.sent[i - |first|];
    }
  }

  /** An `ApiConnector`: the host every path is appended to and its default headers. */
  datatype Connector = Connector(host: string, headers: Headers)

  const JsonType := "application/json"

  /** The methods `_request` dispatches on; anything else raises. */
  predicate Supported(verb: string) {
    verb in {"GET", "POST", "PATCH", "PUT"}
  }

  /**
   What `_request` makes of a response. `Null` is Python's `None`: the result of
   a failed status or of a reply without a Content-Type header.
   */
  function Classify(resp: Response): (r: Result<Value>)
    ensures resp.NoReply? ==> r == Failure(ConnectionError)
    ensures resp.Reply? && resp.status >= 400 ==> r == Success(Null)
    ensures resp.Reply? && resp.status < 400 && resp.contentType == Some(JsonType) ==>
              r == (if resp.body.Some? then Success(resp.body.value) else Failure(JsonDecodeError))
    ensures resp.Reply? && resp.status < 400 && resp.contentType.Some? && resp.contentType.value != JsonType ==>
              r == Failure(RequestException("Unexpected Content type"))
    ensures resp.Reply? && resp.status < 400 && resp.contentType.None? ==> r == Success(Null)
  {
    match resp
    case NoReply => Failure(ConnectionError)
    case Reply(status, contentType, body) =>
      if status >= 400 then Success(Null)
      else if contentType.Some? && contentType.value == JsonType then
        if body.Some? then Success(body.value) else Failure(JsonDecodeError)
      else if contentType.Some? then Failure(RequestException("Unexpected Content type"))
      else Success(Null)
  }

  /**
   `ApiConnector._request(method, path, headers, payload)`: upper-case the
   method, reject the unsupported ones before anything goes out, send one
   request to `host + path` with the given or the default headers, and
   classify the reply. `payload` is `Null` when the caller passes none.
   */
  function Send(conn: Connector, server: Server, verb: string, path: string,
                headers: Option<Headers>, payload: Value): (x: Exchange<Value>)
    ensures !Supported(UpperAll(verb)) <==> x.sent == []
    ensures !Supported(UpperAll(verb)) ==> x.outcome == Failure(RequestException("Request Method not implemented"))
    ensures Supported(UpperAll(verb)) ==>
      && |x.sent| == 1
      && x.sent[0].verb == UpperAll(verb)
      && x.sent[0].url == conn.host + path
      && x.sent[0].headers == headers.GetOr(conn.headers)
      && (x.sent[0].body.None? <==> x.sent[0].verb == "GET")
      && (x.sent[0].body.Some? ==> x.sent[0].body.value == payload)
      && x.outcome == Classify(server(x.sent[0]))
  {
    var m := UpperAll(verb);
    if !Supported(m) then Exchange([], Failure(RequestException("Request Method not implemented")))
    else
      var req := Request(m, conn.host + path, headers.GetOr(conn.headers),
                         if m == "GET" then None else Some(payload));
      Exchange([req], Classify(server(req)))
  }

  /** The request `_get` sends for `path`: the given headers, or the connector's own when none are given. */
  function GetRequestWith(conn: Connector, path: string, headers: Option<Headers>): Request {
    Request("GET", conn.host + path, headers.GetOr(conn.headers), None)
  }

  /** The request `_post`, `_patch` or `_put` sends for `path` and `payload`. */
  function BodyRequestWith(conn: Connector, verb: string, path: string, headers: Option<Headers>, payload: Value): Request {
    Request(verb, conn.host + path, headers.GetOr(conn.headers), Some(payload))
  }

  /** The GET the core's callers send: they never pass headers. */
  function GetRequest(conn: Connector, path: string): Request {
    GetRequestWith(conn, path, None)
  }

  /** The body request the core's callers send: they never pass headers. */
  function BodyRequest(conn: Connector, verb: string, path: string, payload: Value): Request {
    BodyRequestWith(conn, verb, path, None, payload)
  }

  /** `_get(path, headers)`: one GET that carries no payload. */
  function Get(conn: Connector, server: Server, path: string, headers: Option<Headers>): (x: Exchange<Value>)
    ensures x.sent == [GetRequestWith(conn, path, headers)]
    ensures x.outcome == Classify(server(x.sent[0]))
  {
    assert UpperAll("GET") == "GET";
    Send(conn, server, "GET", path, headers, Null)
  }

  /** `_post(path, payload, headers)`. */
  function Post(conn: Connector, server: Server, path: string, payload: Value, headers: Option<Headers>): (x: Exchange<Value>)
    ensures x.sent == [BodyRequestWith(conn, "POST", path, headers, payload)]
    ensures x.outcome == Classify(server(x.sent[0]))
  {
    assert UpperAll("POST") == "POST";
    Send(conn, server, "POST", path, headers, payload)
  }

  /** `_patch(path, payload, headers)`. */
  function Patch(conn: Connector, server: Server, path: string, payload: Value, headers: Option<Headers>): (x: Exchange<Value>)
    ensures x.sent == [BodyRequestWith(conn, "PATCH", path, headers, payload)]
    ensures x.outcome == Classify(server(x.sent[0]))
  {
    assert UpperAll("PATCH") == "PATCH";
    Send(conn, server, "PATCH", path, headers, payload)
  }

  /** `_put(path, payload, headers)`. */
  function Put(conn: Connector, server: Server, path: string, payload: Value, headers: Option<Headers>): (x: Exchange<Value>)
    ensures x.sent == [BodyRequestWith(conn, "PUT", path, headers, payload)]
    ensures x.outcome == Classify(server(x.sent[0]))
  {
    assert UpperAll("PUT") == "PUT";
    Send(conn, server, "PUT", path, headers, payload)
  }

  /**
   Every accepted spelling of a method does what its wrapper does: `_request`
   with a verb whose upper-case form is GET, POST, PATCH or PUT is the same
   exchange as `_get`, `_post`, `_patch` or `_put` (a GET drops the payload).
   */
  lemma SendDispatches(conn: Connector, server: Server, verb: string, path: string,
                       headers: Option<Headers>, payload: Value)
    requires Supported(UpperAll(verb))
    ensures Send(conn, server, verb, path, headers, payload) ==
            if UpperAll(verb) == "GET" then Get(conn, server, path, headers)
            else if UpperAll(verb) == "POST" then Post(conn, server, path, payload, headers)
            else if UpperAll(verb) == "PATCH" then Patch(conn, server, path, payload, headers)
            else Put(conn, server, path, payload, headers)
  {
  }

  /** Two spellings of a method that upper-case alike give the same exchange. */
  lemma SendCaseInsensitive(conn: Connector, server: Server, verb: string, other: string, path: string,
                            headers: Option<Headers>, payload: Value)
    requires UpperAll(verb) == UpperAll(other)
    ensures Send(conn, server, verb, path, headers, payload) == Send(conn, server, other, path, headers, payload)
  {
  }

  /**
   `_request` returns `None` exactly for a failed status, for a reply without a
   Content-Type, and for a JSON reply whose body is `null`.
   */
  lemma ClassifyNoneIff(resp: Response)
    ensures Classify(resp) == Success(Null) <==>
            resp.Reply? &&
            (resp.status >= 400 || resp.contentType.None? || (resp.contentType == Some(JsonType) && resp.body == Some(Null)))
  {
  }

  /**
   `_request` raises exactly when no reply comes, or a reply with a status
   below 400 carries a Content-Type other than `application/json`, or a body
   that does not decode.
   */
  lemma ClassifyRaisesIff(resp: Response)
    ensures Classify(resp).Failure? <==>
            resp.NoReply? ||
            (resp.status < 400 && resp.contentType.Some? && (resp.contentType.value != JsonType || resp.body.None?))
  {
  }

  /** Lower-case method names are accepted: `_request` upper-cases first. */
  lemma LowerCaseMethodAccepted(conn: Connector, server: Server, path: string, payload: Value)
    ensures Send(conn, server, "patch", path, None, payload) == Patch(conn, server, path, payload, None)
  {
    assert UpperAll("patch") == "PATCH";
  }

  /** DELETE is not among the dispatched methods: it raises and sends nothing. */
  lemma DeleteRejected(conn: Connector, server: Server, path: string, payload: Value)
    ensures Send(conn, server, "delete", path, None, payload) ==
            Exchange([], Failure(RequestException("Request Method not implemented")))
  {
    assert UpperAll("delete") == "DELETE";
  }

  /** A parameterised JSON media type is not `application/json` to `_request`: it raises. */
  lemma CharsetParameterRejected(body: Option<Value>)
    ensures Classify(Reply(200, Some("application/json; charset=utf-8"), body)).Failure?
  {
  }
}

=== FILE: forward.dfy ===
/**
 `ForwardAPI`: the source side. It resolves a network to its latest processed
 snapshot and runs a named NQE query against it, page by page, through the
 loop of module `Pagination`. The eight `get_*` wrappers differ only in which
 configured query they default to.
 */
module Forward {
  import opened Values
  import opened Common
  import Pagination

  /** The queries the configuration names, one per `get_*` wrapper. */
  datatype QueryKind =
    | Locations | Vendors | DeviceTypes | Models | Devices | Interfaces
    | VirtualDeviceContexts | VirtualChassis

  datatype NqeQueries = NqeQueries(
    locations: Value, vendors: Value, deviceTypes: Value, models: Value, devices: Value,
    interfaces: Value, virtualDeviceContexts: Value, virtualChassis: Value)

  /** The configured query id a wrapper falls back to. */
  function QueryFor(queries: NqeQueries, kind: QueryKind): Value {
    match kind
    case Locations => queries.locations
    case Vendors => queries.vendors
    case DeviceTypes => queries.deviceTypes
    case Models => queries.models
    case Devices => queries.devices
    case Interfaces => queries.interfaces
    case VirtualDeviceContexts => queries.virtualDeviceContexts
    case VirtualChassis => queries.virtualChassis
  }

  /** A configured `ForwardAPI`. `nqeLimit` is read from the configuration and never used. */
  datatype ForwardApi = ForwardApi(conn: Connector, networkId: string, queries: NqeQueries, nqeLimit: Value)

  function ForwardHeaders(authentication: string): Headers {
    map["Accept" := JsonType, "Content-Type" := JsonType, "Authorization" := authentication]
  }

  /** `ForwardAPI.__init__`: `nqe_limit` defaults to 1000 when the configuration omits it. */
  function NewForwardApi(host: string, authentication: string, networkId: string,
                         queries: NqeQueries, nqeLimit: Option<Value>): (api: ForwardApi)
    ensures api.conn.host == host && api.networkId == networkId && api.queries == queries
    ensures api.conn.headers == map["Accept" := "application/json", "Content-Type" := "application/json",
                                    "Authorization" := authentication]
    ensures nqeLimit.None? ==> api.nqeLimit == Int(1000)
  {
    ForwardApi(Connector(host, ForwardHeaders(authentication)), networkId, queries, nqeLimit.GetOr(Int(1000)))
  }

  function SnapshotPath(networkId: string): string {
    "/api/networks/" + networkId + "/snapshots/latestProcessed"
  }

  /**
   `get_latest_snapshot`: one GET for the network (the configured one when
   none is given); a `None` answer raises.
   */
  function LatestSnapshot(api: ForwardApi, server: Server, networkId: Option<string>): (x: Exchange<Value>)
    ensures x.sent == [GetRequest(api.conn, SnapshotPath(networkId.GetOr(api.networkId)))]
    ensures var answer := Classify(server(x.sent[0]));
            && (answer == Success(Null) ==> x.outcome == Failure(RequestException("Invalid response")))
            && (answer.Success? && answer.value != Null ==> x.outcome == answer)
            && (answer.Failure? ==> x.outcome == answer)
  {
    SnapshotOn(api.conn, server, networkId.GetOr(api.networkId))
  }

  function SnapshotOn(conn: Connector, server: Server, networkId: string): (x: Exchange<Value>)
    ensures x.sent == [GetRequest(conn, SnapshotPath(networkId))]
  {
    var got := Get(conn, server, SnapshotPath(networkId), None);
    if got.outcome == Success(Null) then Exchange(got.sent, Failure(RequestException("Invalid response")))
    else got
  }

  function Digit(d: nat): char
    requires d < 10
  {
    ('0' as int + d) as char
  }

  /** The number a string of decimal digits denotes, most significant first. */
  function DigitsValue(s: string): int
    decreases |s|
  {
    if |s| == 0 then 0 else 10 * DigitsValue(s[..|s| - 1]) + (s[|s| - 1] as int - '0' as int)
  }

  /** The decimal text of `n`, as `str(n)` writes it: digits only, no leading zero. */
  function NatDigits(n: nat): (s: string)
    ensures |s| >= 1
    ensures forall i :: 0 <= i < |s| ==> '0' <= s[i] <= '9'
    ensures DigitsValue(s) == n
    ensures n > 0 ==> s[0] != '0'
    decreases n
  {
    if n < 10 then [Digit(n)]
    else
      var s := NatDigits(n / 10) + [Digit(n % 10)];
      assert s[..|s| - 1] == NatDigits(n / 10);
      s
  }

  /**
   The text an f-string gives a scalar JSON value. Lists and objects are not
   formatted (the model raises instead).
   */
  function Show(v: Value): (r: Result<string>)
    ensures r.Success? <==> Hashable(v)
    ensures v.Str? ==> r == Success(v.s)
    ensures v.Null? ==> r == Success("None")
    ensures v.Bool? ==> r == Success(if v.b then "True" else "False")
    ensures v.Int? && v.i >= 0 ==> r == Success(NatDigits(v.i))
    ensures v.Int? && v.i < 0 ==> r == Success("-" + NatDigits(-v.i))
  {
    match v
    case Null => Success("None")
    case Bool(b) => Success(if b then "True" else "False")
    case Int(n) => Success(if n < 0 then "-" + NatDigits(-n) else NatDigits(n))
    case Str(s) => Success(s)
    case _ => Failure(TypeMismatch)
  }

  function NqePath(snapshotId: string): string {
    "/api/nqe?snapshotId=" + snapshotId
  }

  /** The body of one NQE request: the query and the page window. */
  function NqePayload(queryId: Value, offset: nat): Value {
    Obj(map["queryId" := queryId,
            "queryOptions" := Obj(map["offset" := Int(offset), "limit" := Int(Pagination.PageLimit)])])
  }

  function NqeRequest(conn: Connector, path: string, queryId: Value, offset: nat): Request {
    BodyRequest(conn, "POST", path, NqePayload(queryId, offset))
  }

  /** The requests for the pages at `offsets`, in order. */
  function NqeRequests(conn: Connector, path: string, queryId: Value, offsets: seq<nat>): (rs: seq<Request>)
    ensures |rs| == |offsets|
    ensures forall i :: 0 <= i < |offsets| ==> rs[i] == NqeRequest(conn, path, queryId, offsets[i])
  {
    seq(|offsets|, i requires 0 <= i < |offsets| => NqeRequest(conn, path, queryId, offsets[i]))
  }

  /** The classified answer to the NQE request for the page at `offset`. */
  function PageAnswer(conn: Connector, server: Server, path: string, queryId: Value, offset: nat): Result<Value> {
    Post(conn, server, path, NqePayload(queryId, offset), None).outcome
  }

  /** The page answers as the pagination loop sees them. */
  function PageFetch(conn: Connector, server: Server, path: string, queryId: Value): Pagination.Fetch {
    (o: nat) => PageAnswer(conn, server, path, queryId, o)
  }

  /** The loop's view of each page is the classified answer to the POST for it. */
  lemma PagesClassified(conn: Connector, server: Server, path: string, queryId: Value, offsets: seq<nat>)
    ensures forall j :: 0 <= j < |offsets| ==>
              PageFetch(conn, server, path, queryId)(offsets[j]) == Classify(server(NqeRequests(conn, path, queryId, offsets)[j]))
  {
  }

  /** The items the answers to `reqs` contribute, concatenated in request order. */
  function AnswerItems(server: Server, reqs: seq<Request>): seq<Value> {
    if |reqs| == 0 then [] else Pagination.ItemsAt(Classify(server(reqs[0]))) + AnswerItems(server, reqs[1..])
  }

  /** The loop's view of the pages and the answers to the requests it sent agree. */
  lemma {:induction false} GatherIsAnswerItems(conn: Connector, server: Server, path: string, queryId: Value,
                                               offsets: seq<nat>)
    ensures Pagination.Gather(PageFetch(conn, server, path, queryId), offsets) ==
            AnswerItems(server, NqeRequests(conn, path, queryId, offsets))
    decreases |offsets|
  {
    if |offsets| > 0 {
      GatherIsAnswerItems(conn, server, path, queryId, offsets[1..]);
      assert NqeRequests(conn, path, queryId, offsets)[1..] == NqeRequests(conn, path, queryId, offsets[1..]);
    }
  }

  /** `snapshot["id"]` as it is formatted into the NQE URL. */
  function SnapshotText(snapshot: Value): (r: Result<string>)
    ensures r.Success? <==> snapshot.Obj? && "id" in snapshot.fields && Hashable(snapshot.fields["id"])
    ensures snapshot.Obj? && "id" in snapshot.fields && snapshot.fields["id"].Str? ==> r == Success(snapshot.fields["id"].s)
    ensures snapshot.Obj? && "id" !in snapshot.fields ==> r == Failure(KeyError(Str("id")))
  {
    var id :- Index(snapshot, "id");
    Show(id)
  }

  /**
   `run_nqe_query(query_id, network_id)`: resolve the snapshot, then page
   through the query. The snapshot GET is always the first request; when it
   answers `None`, or an answer without a usable `id`, nothing else is sent.
   Otherwise every later request is the POST of the query to
   `/api/nqe?snapshotId=<id>` at offsets 0, 1000, 2000, ... with limit 1000,
   and a successful result is the items of the answers, in request order.
   */
  function RunNqe(api: ForwardApi, server: Server, queryId: Value, networkId: Option<string>): (x: Exchange<seq<Value>>)
    ensures |x.sent| >= 1 && x.sent[0] == GetRequest(api.conn, SnapshotPath(networkId.GetOr(api.networkId)))
    ensures var snap := Classify(server(x.sent[0]));
            && (snap == Success(Null) ==> x == Exchange(x.sent[..1], Failure(RequestException("Invalid response"))))
            && (snap.Failure? ==> x == Exchange(x.sent[..1], Failure(snap.error)))
            && (snap.Success? && snap.value != Null && SnapshotText(snap.value).Failure? ==>
                  x == Exchange(x.sent[..1], Failure(SnapshotText(snap.value).error)))
            && (snap.Success? && snap.value != Null && SnapshotText(snap.value).Success? ==> |x.sent| >= 2)
            && (|x.sent| >= 2 ==>
                  && snap.Success? && SnapshotText(snap.value).Success?
                  && forall i :: 1 <= i < |x.sent| ==>
                       x.sent[i] == NqeRequest(api.conn, NqePath(SnapshotText(snap.value).value), queryId,
                                               Pagination.PageLimit * (i - 1)))
    ensures x.outcome.Success? ==> |x.sent| >= 2 && x.outcome.value == AnswerItems(server, x.sent[1..])
    ensures x.outcome.Success? ==> forall i :: 1 <= i < |x.sent| ==> Classify(server(x.sent[i])).Success?
    ensures forall i :: 1 <= i < |x.sent| && Classify(server(x.sent[i])).Failure? ==>
              i == |x.sent| - 1 && x.outcome == Failure(Classify(server(x.sent[i])).error)
  {
    QueryOn(api.conn, server, queryId, networkId.GetOr(api.networkId))
  }

  /** `run_nqe_query` once the network id is settled. */
  function QueryOn(conn: Connector, server: Server, queryId: Value, networkId: string): (x: Exchange<seq<Value>>)
    ensures |x.sent| >= 1 && x.sent[0] == GetRequest(conn, SnapshotPath(networkId))
    ensures var snap := Classify(server(x.sent[0]));
            && (snap == Success(Null) ==> x == Exchange(x.sent[..1], Failure(RequestException("Invalid response"))))
            && (snap.Failure? ==> x == Exchange(x.sent[..1], Failure(snap.error)))
            && (snap.Success? && snap.value != Null && SnapshotText(snap.value).Failure? ==>
                  x == Exchange(x.sent[..1], Failure(SnapshotText(snap.value).error)))
            && (snap.Success? && snap.value != Null && SnapshotText(snap.value).Success? ==> |x.sent| >= 2)
            && (|x.sent| >= 2 ==>
                  && snap.Success? && SnapshotText(snap.value).Success?
                  && forall i :: 1 <= i < |x.sent| ==>
                       x.sent[i] == NqeRequest(conn, NqePath(SnapshotText(snap.value).value), queryId,
                                               Pagination.PageLimit * (i - 1)))
    ensures x.outcome.Success? ==> |x.sent| >= 2 && x.outcome.value == AnswerItems(server, x.sent[1..])
    ensures x.outcome.Success? ==> forall i :: 1 <= i < |x.sent| ==> Classify(server(x.sent[i])).Success?
    ensures forall i :: 1 <= i < |x.sent| && Classify(server(x.sent[i])).Failure? ==>
              i == |x.sent| - 1 && x.outcome == Failure(Classify(server(x.sent[i])).error)
  {
    var snap := SnapshotOn(conn, server, networkId);
    if snap.outcome.Failure? then Exchange(snap.sent, Failure(snap.outcome.error))
    else
      var text := SnapshotText(snap.outcome.value);
      if text.Failure? then Exchange(snap.sent, Failure(text.error))
      else
        var pages := QueryPages(conn, server, NqePath(text.value), queryId);
        assert (snap.sent + pages.sent)[1..] == pages.sent;
        Exchange(snap.sent + pages.sent, pages.outcome)
  }

  /**
   The paging part of `run_nqe_query` on one snapshot: POSTs of the query at
   offsets 0, 1000, 2000, ...; the first that raises ends the call with its
   error, and a successful result is the items of the answers, in order.
   */
  function QueryPages(conn: Connector, server: Server, path: string, queryId: Value): (x: Exchange<seq<Value>>)
    ensures |x.sent| >= 1
    ensures forall i :: 0 <= i < |x.sent| ==> x.sent[i] == NqeRequest(conn, path, queryId, Pagination.PageLimit * i)
    ensures x.outcome.Success? ==> x.outcome.value == AnswerItems(server, x.sent)
    ensures x.outcome.Success? ==> forall i :: 0 <= i < |x.sent| ==> Classify(server(x.sent[i])).Success?
    ensures forall i :: 0 <= i < |x.sent| && Classify(server(x.sent[i])).Failure? ==>
              i == |x.sent| - 1 && x.outcome == Failure(Classify(server(x.sent[i])).error)
  {
    var w := Pagination.Run(PageFetch(conn, server, path, queryId));
    GatherIsAnswerItems(conn, server, path, queryId, w.offsets);
    PagesClassified(conn, server, path, queryId, w.offsets);
    Exchange(NqeRequests(conn, path, queryId, w.offsets), w.result)
  }

  /** The query a `get_*` wrapper runs: the one given, or the configured one when it is `None`. */
  function EffectiveQuery(api: ForwardApi, kind: QueryKind, queryId: Value): Value {
    if queryId == Null then QueryFor(api.queries, kind) else queryId
  }

  /**
   Every `get_*` wrapper: a `None` network id or query id is replaced by the
   configured one before the query runs (`queryId` is `Null` for `None`).
   */
  function Collect(api: ForwardApi, server: Server, kind: QueryKind,
                   networkId: Option<string>, queryId: Value): (x: Exchange<seq<Value>>)
    ensures |x.sent| >= 1 && x.sent[0] == GetRequest(api.conn, SnapshotPath(networkId.GetOr(api.networkId)))
    ensures queryId == Null ==> forall i :: 1 <= i < |x.sent| ==>
              x.sent[i].body.Some? && x.sent[i].body.value.Obj? && "queryId" in x.sent[i].body.value.fields &&
              x.sent[i].body.value.fields["queryId"] == QueryFor(api.queries, kind)
    ensures queryId != Null ==> forall i :: 1 <= i < |x.sent| ==>
              x.sent[i].body.Some? && x.sent[i].body.value.Obj? && "queryId" in x.sent[i].body.value.fields &&
              x.sent[i].body.value.fields["queryId"] == queryId
    ensures x.outcome.Success? ==> |x.sent| >= 2 && x.outcome.value == AnswerItems(server, x.sent[1..])
  {
    RunNqe(api, server, EffectiveQuery(api, kind, queryId), Some(networkId.GetOr(api.networkId)))
  }

  /** Called with no arguments, a wrapper runs its configured query on the configured network. */
  lemma CollectDefaults(api: ForwardApi, server: Server, kind: QueryKind)
    ensures Collect(api, server, kind, None, Null) == RunNqe(api, server, QueryFor(api.queries, kind), None)
  {
  }

  /** With both arguments given (the query not `None`), a wrapper is `run_nqe_query` on them. */
  lemma CollectExplicit(api: ForwardApi, server: Server, kind: QueryKind, networkId: string, queryId: Value)
    requires queryId != Null
    ensures Collect(api, server, kind, Some(networkId), queryId) == RunNqe(api, server, queryId, Some(networkId))
  {
  }

  /**
   `run_nqe_query` starts with `get_latest_snapshot` for the same network and
   raises whatever it raises, with nothing further sent.
   */
  lemma RunNqeResolvesSnapshot(api: ForwardApi, server: Server, queryId: Value, networkId: Option<string>)
    ensures RunNqe(api, server, queryId, networkId).sent[..1] == LatestSnapshot(api, server, networkId).sent
    ensures LatestSnapshot(api, server, networkId).outcome.Failure? ==>
              RunNqe(api, server, queryId, networkId) ==
              Exchange(LatestSnapshot(api, server, networkId).sent, Failure(LatestSnapshot(api, server, networkId).outcome.error))
  {
  }

  /** The configured `nqe_limit` changes nothing: the page size is fixed at 1000. */
  lemma NqeLimitIgnored(api: ForwardApi, server: Server, queryId: Value, networkId: Option<string>, limit: Value)
    ensures RunNqe(api.(nqeLimit := limit), server, queryId, networkId) == RunNqe(api, server, queryId, networkId)
  {
  }

  /**
   With a snapshot answer whose `id` formats as `snapshotId` (whatever else the
   answer carries, and whether the id is a string or an integer) and every
   NQE page answered, the query succeeds with the concatenation of the pages'
   items, after max(1, ceil(total / 1000)) page requests.
   */
  lemma RunNqeAllPages(api: ForwardApi, server: Server, queryId: Value, networkId: Option<string>,
                       snapshotId: string, n: int)
    requires var snap := Classify(server(GetRequest(api.conn, SnapshotPath(networkId.GetOr(api.networkId)))));
             snap.Success? && snap.value != Null && SnapshotText(snap.value) == Success(snapshotId)
    requires forall o: nat :: Pagination.Answered(PageFetch(api.conn, server, NqePath(snapshotId), queryId), o)
    requires var first := PageAnswer(api.conn, server, NqePath(snapshotId), queryId, 0);
             first.Success? && first.value.Obj? && Pagination.ReadTotal(first.value) == Success(n)
    ensures var x := RunNqe(api, server, queryId, networkId);
            && x.outcome.Success?
            && |x.sent| == 1 + (if n <= Pagination.PageLimit then 1 else (n + Pagination.PageLimit - 1) / Pagination.PageLimit)
            && x.outcome.value == AnswerItems(server, x.sent[1..])
  {
    Pagination.AllPagesAnswered(PageFetch(api.conn, server, NqePath(snapshotId), queryId), n);
  }
}

=== FILE: matching.dfy ===
/**
 The create-or-update partition of `NetboxAPI.add_device_list` and
 `add_interface_list`, without the HTTP around it (module `Netbox` adds that).

 Every incoming record is compared by `name`, and by `name` only, with every
 existing sink record in order; each match writes the existing record's `id`
 onto the incoming record and appends the incoming record to the update list.
 Python appends the same dictionary object each time, so a record that matched
 k times sits k times in the update list, each time in its final state: with the
 id of its LAST match. The create list is then every incoming record that has
 no `id` key.
 */
module Matching {
  import opened Values

  /** The name an incoming record is matched on (`Null` stands in when it has none). */
  function NameOf(d: Record): Value {
    if "name" in d then d["name"] else Null
  }

  /**
   The inner loop for one incoming record `d`: scan the existing records in
   order, overwriting `d["id"]` at each match. Returns `d` as it ends up and the
   number of times it was appended to the update list. The lookups are those of
   the source, in its order: `d["name"]`, then the existing record's `name`,
   then, on a match, its `id`.
   */
  function Scan(d: Record, existing: seq<Value>): (r: Result<(Record, nat)>)
    ensures r.Success? ==> r.value.1 <= |existing|
    ensures r.Success? ==> forall k :: k in d && k != "id" ==> k in r.value.0 && r.value.0[k] == d[k]
    ensures r.Success? && r.value.1 == 0 ==> r.value.0 == d
    decreases |existing|
  {
    if |existing| == 0 then Success((d, 0))
    else
      var name :- Field(d, "name");
      var other :- Index(existing[0], "name");
      if name == other then
        var id :- Index(existing[0], "id");
        var rest :- Scan(d["id" := id], existing[1..]);
        Success((rest.0, rest.1 + 1))
      else Scan(d, existing[1..])
  }

  function Copies(d: Record, k: nat): (r: seq<Record>)
    ensures |r| == k
    ensures forall i :: 0 <= i < k ==> r[i] == d
  {
    if k == 0 then [] else [d] + Copies(d, k - 1)
  }

  /** The incoming records as they end up, and the update list. */
  datatype Partition = Partition(finals: seq<Record>, updates: seq<Record>)

  /** The nested matching loop over all incoming records, in order. */
  function MatchAll(incoming: seq<Record>, existing: seq<Value>): (r: Result<Partition>)
    ensures r.Success? ==> |r.value.finals| == |incoming|
  {
    if |incoming| == 0 then Success(Partition([], []))
    else
      var scanned :- Scan(incoming[0], existing);
      var rest :- MatchAll(incoming[1..], existing);
      Success(Partition([scanned.0] + rest.finals, Copies(scanned.0, scanned.1) + rest.updates))
  }

  /** `[d for d in finals if "id" not in d.keys()]`. */
  function CreateList(finals: seq<Record>): (r: seq<Record>)
    ensures forall i :: 0 <= i < |r| ==> "id" !in r[i]
    ensures forall d :: d in finals && "id" !in d ==> d in r
    ensures forall d :: d in r ==> d in finals
  {
    if |finals| == 0 then []
    else (if "id" in finals[0] then [] else [finals[0]]) + CreateList(finals[1..])
  }

  // ---------------------------------------------------------------------------
  // Reference definitions
  // ---------------------------------------------------------------------------

  /** The name of each existing record, `None` where it has none. */
  function Names(existing: seq<Value>): (r: seq<Option<Value>>)
    ensures |r| == |existing|
  {
    if |existing| == 0 then []
    else [if existing[0].Obj? && "name" in existing[0].fields then Some(existing[0].fields["name"]) else None]
         + Names(existing[1..])
  }

  /** How many existing records carry the name of `d`. */
  function Hits(d: Record, existing: seq<Value>): nat {
    multiset(Names(existing))[Some(NameOf(d))]
  }

  /** `d` with the id of the last existing record of the same name, if there is one. */
  function Settle(d: Record, existing: seq<Value>): Record {
    match LastId(existing, "name", NameOf(d))
    case None => d
    case Some(id) => d["id" := id]
  }

  /** The update list the pairs of matching records call for: incoming order, then existing order. */
  function ExpectedUpdates(incoming: seq<Record>, existing: seq<Value>): seq<Record> {
    if |incoming| == 0 then []
    else Copies(Settle(incoming[0], existing), Hits(incoming[0], existing))
         + ExpectedUpdates(incoming[1..], existing)
  }

  /** An incoming record that arrives without an id and that no existing record names. */
  ghost predicate Unclaimed(d: Record, existing: seq<Value>) {
    && "id" !in d
    && forall j :: 0 <= j < |existing| ==> !HasKey(existing[j], "name", NameOf(d))
  }

  /** The incoming records that are to be created, in input order. */
  ghost function Unmatched(incoming: seq<Record>, existing: seq<Value>): seq<Record> {
    if |incoming| == 0 then []
    else (if Unclaimed(incoming[0], existing) then [incoming[0]] else []) + Unmatched(incoming[1..], existing)
  }

  /** The lookups of the scan of `d` all succeed. */
  ghost predicate Scannable(d: Record, existing: seq<Value>) {
    |existing| == 0 ||
    ("name" in d &&
     forall j :: 0 <= j < |existing| ==>
       && existing[j].Obj? && "name" in existing[j].fields
       && (existing[j].fields["name"] == d["name"] ==> "id" in existing[j].fields))
  }

  // ---------------------------------------------------------------------------
  // Properties
  // ---------------------------------------------------------------------------

  /** One step of `LastId` on the name key, with the head record exposed. */
  lemma LastIdHead(existing: seq<Value>, name: Value)
    requires |existing| > 0
    ensures LastId(existing, "name", name) ==
            (if LastId(existing[1..], "name", name).Some? then LastId(existing[1..], "name", name)
             else if HasKey(existing[0], "name", name) then Some(IdOf(existing[0])) else None)
  {
  }

  /** Counting the head record of the sink separately. */
  lemma HitsHead(d: Record, existing: seq<Value>)
    requires |existing| > 0
    ensures Hits(d, existing) == (if HasKey(existing[0], "name", NameOf(d)) then 1 else 0) + Hits(d, existing[1..])
  {
    assert Names(existing) == [Names(existing)[0]] + Names(existing[1..]);
  }

  /** Settling against the sink, with its head record exposed. */
  lemma SettleHead(d: Record, existing: seq<Value>)
    requires |existing| > 0
    ensures Settle(d, existing) ==
            (if LastId(existing[1..], "name", NameOf(d)).Some? then Settle(d, existing[1..])
             else if HasKey(existing[0], "name", NameOf(d)) then d["id" := IdOf(existing[0])]
             else d)
  {
    LastIdHead(existing, NameOf(d));
  }

  /** An id written before settling is overwritten by a later match. */
  lemma SettleOverwrites(d: Record, id: Value, existing: seq<Value>)
    requires "name" in d
    ensures Settle(d["id" := id], existing) ==
            (if LastId(existing, "name", NameOf(d)).Some? then Settle(d, existing) else d["id" := id])
  {
    var d' := d["id" := id];
    assert NameOf(d') == NameOf(d);
    match LastId(existing, "name", NameOf(d))
    case Some(v) =>
      assert d'["id" := v] == d["id" := v];
    case None =>
  }

  /**
   The scan of one record ends with the id of the LAST existing record of the
   same name (later matches overwrite earlier ones), and appends the record once
   per existing record of that name.
   */
  lemma {:induction false} ScanSettles(d: Record, existing: seq<Value>)
    requires Scan(d, existing).Success?
    ensures Scan(d, existing).value == (Settle(d, existing), Hits(d, existing))
    decreases |existing|
  {
    if |existing| > 0 {
      var e := existing[0];
      HitsHead(d, existing);
      SettleHead(d, existing);
      if d["name"] == e.fields["name"] {
        var d' := d["id" := e.fields["id"]];
        assert NameOf(d') == NameOf(d);
        assert HasKey(e, "name", NameOf(d)) && IdOf(e) == e.fields["id"];
        ScanSettles(d', existing[1..]);
        SettleOverwrites(d, e.fields["id"], existing[1..]);
      } else {
        assert !HasKey(e, "name", NameOf(d));
        ScanSettles(d, existing[1..]);
      }
    }
  }

  /** The scan of `d` raises exactly when one of its lookups fails. */
  lemma {:induction false} ScanSucceedsIff(d: Record, existing: seq<Value>)
    ensures Scan(d, existing).Success? <==> Scannable(d, existing)
    decreases |existing|
  {
    if |existing| > 0 && "name" in d && existing[0].Obj? && "name" in existing[0].fields {
      var e := existing[0];
      assert Scannable(d, existing) ==> Scannable(d, existing[1..]) by {
        if Scannable(d, existing) && |existing[1..]| > 0 {
          forall j | 0 <= j < |existing[1..]|
            ensures existing[1..][j].Obj? && "name" in existing[1..][j].fields
            ensures existing[1..][j].fields["name"] == d["name"] ==> "id" in existing[1..][j].fields
          {
            assert existing[1..][j] == existing[j + 1];
          }
        }
      }
      if d["name"] == e.fields["name"] && "id" in e.fields {
        var d' := d["id" := e.fields["id"]];
        ScanSucceedsIff(d', existing[1..]);
        assert Scannable(d', existing[1..]) <==> Scannable(d, existing[1..]);
        if Scannable(d, existing[1..]) {
          assert Scannable(d, existing) by {
            forall j | 1 <= j < |existing|
              ensures existing[j].Obj? && "name" in existing[j].fields
              ensures existing[j].fields["name"] == d["name"] ==> "id" in existing[j].fields
            {
              assert existing[j] == existing[1..][j - 1];
            }
          }
        }
      } else if d["name"] != e.fields["name"] {
        ScanSucceedsIff(d, existing[1..]);
        if Scannable(d, existing[1..]) {
          assert Scannable(d, existing) by {
            forall j | 1 <= j < |existing|
              ensures existing[j].Obj? && "name" in existing[j].fields
              ensures existing[j].fields["name"] == d["name"] ==> "id" in existing[j].fields
            {
              assert existing[j] == existing[1..][j - 1];
            }
          }
        }
      }
    }
  }

  /** The whole matching phase raises exactly when the scan of some incoming record does. */
  lemma {:induction false} MatchSucceedsIff(incoming: seq<Record>, existing: seq<Value>)
    ensures MatchAll(incoming, existing).Success? <==>
            forall i :: 0 <= i < |incoming| ==> Scannable(incoming[i], existing)
    decreases |incoming|
  {
    if |incoming| > 0 {
      ScanSucceedsIff(incoming[0], existing);
      MatchSucceedsIff(incoming[1..], existing);
      assert forall i :: 1 <= i < |incoming| ==> incoming[i] == incoming[1..][i - 1];
    }
  }

  /**
   After matching, every incoming record carries the id of the last existing
   record with its name, or is unchanged when there is none; the update list
   holds one entry per (incoming, existing) pair of equal names, ordered by
   incoming record and then by existing record.
   */
  lemma {:induction false} PartitionSettles(incoming: seq<Record>, existing: seq<Value>)
    requires MatchAll(incoming, existing).Success?
    ensures var p := MatchAll(incoming, existing).value;
            && |p.finals| == |incoming|
            && (forall i :: 0 <= i < |incoming| ==> p.finals[i] == Settle(incoming[i], existing))
            && p.updates == ExpectedUpdates(incoming, existing)
    decreases |incoming|
  {
    if |incoming| > 0 {
      ScanSettles(incoming[0], existing);
      PartitionSettles(incoming[1..], existing);
      var p := MatchAll(incoming, existing).value;
      var rest := MatchAll(incoming[1..], existing).value;
      forall i | 1 <= i < |incoming|
        ensures p.finals[i] == Settle(incoming[i], existing)
      {
        assert p.finals[i] == rest.finals[i - 1];
        assert incoming[i] == incoming[1..][i - 1];
      }
    }
  }

  /** A settled record lacks an id exactly when it came without one and matched nothing. */
  lemma SettledWithoutId(d: Record, existing: seq<Value>)
    ensures "id" !in Settle(d, existing) <==> Unclaimed(d, existing)
  {
  }

  /**
   The create list is exactly the incoming records that came without an id and
   that no existing record names, unchanged and in input order.
   */
  lemma {:induction false} CreateListIsUnmatched(incoming: seq<Record>, existing: seq<Value>)
    requires MatchAll(incoming, existing).Success?
    ensures CreateList(MatchAll(incoming, existing).value.finals) == Unmatched(incoming, existing)
    decreases |incoming|
  {
    if |incoming| > 0 {
      PartitionSettles(incoming, existing);
      SettledWithoutId(incoming[0], existing);
      CreateListIsUnmatched(incoming[1..], existing);
      var p := MatchAll(incoming, existing).value;
      var rest := MatchAll(incoming[1..], existing).value;
      assert p.finals[1..] == rest.finals;
      if Unclaimed(incoming[0], existing) {
        assert Settle(incoming[0], existing) == incoming[0];
      }
    }
  }

  /** Duplicate sink names: two matches put the record twice in the update list, both with the later id. */
  lemma LastMatchWins()
    ensures var a := Obj(map["name" := Str("sw1"), "id" := Int(1)]);
            var b := Obj(map["name" := Str("sw1"), "id" := Int(2)]);
            var d: Record := map["name" := Str("sw1")];
            var settled := d["id" := Int(2)];
            MatchAll([d], [a, b]) == Success(Partition([settled], [settled, settled]))
  {
    var a := Obj(map["name" := Str("sw1"), "id" := Int(1)]);
    var b := Obj(map["name" := Str("sw1"), "id" := Int(2)]);
    var d: Record := map["name" := Str("sw1")];
    assert [a, b][1..] == [b];
    assert d["id" := Int(1)]["id" := Int(2)] == d["id" := Int(2)];
    assert Scan(d["id" := Int(1)], [b]) == Success((d["id" := Int(2)], 1));
    assert Scan(d, [a, b]) == Success((d["id" := Int(2)], 2));
    assert [d][1..] == [];
    var settled := d["id" := Int(2)];
    assert Copies(settled, 2) == [settled, settled];
    assert MatchAll([d][1..], [a, b]) == Success(Partition([], []));
    assert MatchAll([d], [a, b]) == Success(Partition([settled] + [], Copies(settled, 2) + []));
    assert [settled] + [] == [settled] && [settled, settled] + [] == [settled, settled];
  }

  /**
   A record that arrives with an id and matches nothing is neither updated nor
   created: the two lists together can be shorter than the input.
   */
  lemma PrefilledUnmatchedIsDropped()
    ensures var d: Record := map["name" := Str("sw9"), "id" := Int(5)];
            var e := Obj(map["name" := Str("sw1"), "id" := Int(1)]);
            var p := MatchAll([d], [e]);
            && p.Success? && p.value.updates == [] && CreateList(p.value.finals) == []
  {
    var d: Record := map["name" := Str("sw9"), "id" := Int(5)];
    var e := Obj(map["name" := Str("sw1"), "id" := Int(1)]);
    assert Scan(d, [e]) == Success((d, 0));
  }

  /**
   Interfaces are matched by name alone: an incoming `eth0` of device 1 takes
   the id of the existing `eth0` of device 2.
   */
  lemma InterfaceDeviceIgnored()
    ensures var d: Record := map["name" := Str("eth0"), "device" := Int(1)];
            var e := Obj(map["name" := Str("eth0"), "device" := Int(2), "id" := Int(9)]);
            MatchAll([d], [e]) == Success(Partition([d["id" := Int(9)]], [d["id" := Int(9)]]))
  {
    var d: Record := map["name" := Str("eth0"), "device" := Int(1)];
    var e := Obj(map["name" := Str("eth0"), "device" := Int(2), "id" := Int(9)]);
    assert [e][1..] == [];
    assert Scan(d, [e]) == Success((d["id" := Int(9)], 1));
    assert Copies(d["id" := Int(9)], 1) == [d["id" := Int(9)]];
    assert [d][1..] == [];
  }
}

=== FILE: netbox.dfy ===
/**
 `NetboxAPI`: the sink side. Listings are fetched with GET; the create-or-update
 calls fetch the existing collection, partition the incoming records (module
 `Matching`), send the whole update list in one PATCH and then each record to
 create in its own POST. The adapters fetch their lookup maps first and then
 rewrite the records (module `Adapters`).
 */
module Netbox {
  import opened Values
  import opened Common
  import Matching
  import Adapters

  /** A configured `NetboxAPI`: its connector and the role every device is given. */
  datatype NetboxApi = NetboxApi(conn: Connector, deviceRole: Value)

  function NetboxHeaders(authentication: string): Headers {
    map["Accept" := JsonType, "Content-Type" := JsonType,
        "User-Agent" := "ForwardNetworks/1.0", "Authorization" := authentication]
  }

  /** `NetboxAPI.__init__`. */
  function NewNetboxApi(host: string, authentication: string, role: Value): (api: NetboxApi)
    ensures api.conn.host == host && api.deviceRole == role
    ensures api.conn.headers == map["Accept" := "application/json", "Content-Type" := "application/json",
                                    "User-Agent" := "ForwardNetworks/1.0", "Authorization" := authentication]
  {
    NetboxApi(Connector(host, NetboxHeaders(authentication)), role)
  }

  /** The sink collections the listing getters read. */
  datatype Listing = Roles | Sites | DeviceTypes | Devices | Interfaces

  function ListingPath(l: Listing): string {
    match l
    case Roles => "/api/dcim/device-roles/"
    case Sites => "/api/dcim/sites/"
    case DeviceTypes => "/api/dcim/device-types/"
    case Devices => "/api/dcim/devices/"
    case Interfaces => "/api/dcim/interfaces/"
  }

  /** The getters that refuse a `None` answer. */
  predicate Required(l: Listing) {
    l == Devices || l == Interfaces
  }

  /**
   `get_roles`, `get_sites`, `get_device_types`, `get_devices`,
   `get_interfaces`: one GET each. The first three hand `None` back to the
   caller; `get_devices` and `get_interfaces` raise `ValueError` instead.
   */
  function GetListing(api: NetboxApi, server: Server, l: Listing): (x: Exchange<Value>)
    ensures x.sent == [GetRequest(api.conn, ListingPath(l))]
    ensures var answer := Classify(server(x.sent[0]));
            && (!Required(l) ==> x.outcome == answer)
            && (Required(l) && answer == Success(Null) ==> x.outcome == Failure(ValueError("Received empty response")))
            && (Required(l) && answer != Success(Null) ==> x.outcome == answer)
    ensures Required(l) ==> x.outcome != Success(Null)
  {
    var got := Get(api.conn, server, ListingPath(l), None);
    if Required(l) && got.outcome == Success(Null) then
      Exchange(got.sent, Failure(ValueError("Received empty response")))
    else got
  }

  // ---------------------------------------------------------------------------
  // add_device_list / add_interface_list
  // ---------------------------------------------------------------------------

  /** The two collections with a create-or-update call. */
  datatype Collection = DeviceList | InterfaceList

  function ListingOf(c: Collection): Listing {
    match c
    case DeviceList => Devices
    case InterfaceList => Interfaces
  }

  function Objects(records: seq<Record>): (vs: seq<Value>)
    ensures |vs| == |records|
    ensures forall i :: 0 <= i < |records| ==> vs[i] == Obj(records[i])
  {
    seq(|records|, i requires 0 <= i < |records| => Obj(records[i]))
  }

  /** The POST requests for `records`, in order. */
  function PostRequests(conn: Connector, path: string, records: seq<Record>): (rs: seq<Request>)
    ensures |rs| == |records|
    ensures forall i :: 0 <= i < |records| ==> rs[i] == BodyRequest(conn, "POST", path, Obj(records[i]))
  {
    seq(|records|, i requires 0 <= i < |records| => BodyRequest(conn, "POST", path, Obj(records[i])))
  }

  /** Every request in `reqs` is answered without raising. */
  predicate Accepted(server: Server, reqs: seq<Request>) {
    |reqs| == 0 || (Classify(server(reqs[0])).Success? && Accepted(server, reqs[1..]))
  }

  /**
   `for record in records: self._post(path, record)`: one POST per record, in
   order; the first that raises ends the loop.
   */
  function PostEach(conn: Connector, server: Server, path: string, records: seq<Record>): (x: Exchange<()>)
    ensures x.sent <= PostRequests(conn, path, records)
    ensures x.outcome.Success? <==> x.sent == PostRequests(conn, path, records) && Accepted(server, x.sent)
    ensures x.outcome.Failure? ==> !Accepted(server, x.sent)
    ensures StopsAtRaise(server, x)
  {
    if |records| == 0 then Exchange([], Success(()))
    else
      var first := Post(conn, server, path, Obj(records[0]), None);
      if first.outcome.Failure? then Exchange(first.sent, Failure(first.outcome.error))
      else
        var rest := PostEach(conn, server, path, records[1..]);
        assert PostRequests(conn, path, records) == first.sent + PostRequests(conn, path, records[1..]);
        assert (first.sent + rest.sent)[1..] == rest.sent;
        StopsAtRaiseAfter(server, first.sent, rest);
        Exchange(first.sent + rest.sent, rest.outcome)
  }

  /**
   `add_device_list(devices)` / `add_interface_list(interfaces)`. On success the
   value is the incoming list as the caller sees it afterwards: every matched
   record carries the id written onto it.
   */
  function AddList(api: NetboxApi, server: Server, c: Collection, incoming: seq<Record>): (x: Exchange<seq<Record>>)
    ensures |x.sent| >= 1 && x.sent[0] == GetRequest(api.conn, ListingPath(ListingOf(c)))
    ensures var got := GetListing(api, server, ListingOf(c)).outcome;
            got.Failure? ==> x == Exchange(x.sent[..1], Failure(got.error))
    ensures StopsAtRaise(server, x)
  {
    var got := GetListing(api, server, ListingOf(c));
    if got.outcome.Failure? then Exchange(got.sent, Failure(got.outcome.error))
    else
      var rest := Upsert(api.conn, server, ListingPath(ListingOf(c)), got.outcome.value, incoming);
      StopsAtRaiseAfter(server, got.sent, rest);
      Exchange(got.sent + rest.sent, rest.outcome)
  }

  /**
   The existing records as the matching loop sees them. `listing["results"]` is
   read at once, but it is iterated only inside the loop over the incoming
   records, so with no incoming record a `results` that cannot be iterated goes
   unnoticed.
   */
  function Existing(listing: Value, incoming: seq<Record>): (r: Result<seq<Value>>)
    ensures |incoming| > 0 ==> r == Adapters.ResultsOf(listing)
    ensures |incoming| == 0 ==> (r.Success? <==> listing.Obj? && "results" in listing.fields)
    ensures |incoming| == 0 && r.Success? ==> r.value == []
  {
    var results :- Index(listing, "results");
    if |incoming| == 0 then Success([]) else Iterate(results)
  }

  /**
   The create-or-update call once the listing is in: read its `results`, match
   the incoming records against them, then send the writes. A listing without
   `results`, or (when there are incoming records) a `results` that cannot be
   iterated or a record the matching cannot read, raises before any write.
   */
  function Upsert(conn: Connector, server: Server, path: string, listing: Value, incoming: seq<Record>): (x: Exchange<seq<Record>>)
    ensures Existing(listing, incoming).Failure? ==> x == Exchange([], Failure(Existing(listing, incoming).error))
    ensures Existing(listing, incoming).Success? && Matching.MatchAll(incoming, Existing(listing, incoming).value).Failure? ==>
              x.sent == [] && x.outcome.Failure?
    ensures x.outcome.Success? ==> Existing(listing, incoming).Success?
    ensures StopsAtRaise(server, x)
  {
    match Existing(listing, incoming)
    case Failure(e) => Exchange([], Failure(e))
    case Success(existing) =>
      match Matching.MatchAll(incoming, existing)
      case Failure(e) => Exchange([], Failure(e))
      case Success(p) => Write(conn, server, path, List(Objects(p.updates)), Matching.CreateList(p.finals), p.finals)
  }

  /** The writes of a create-or-update call: one PATCH with the update list, then one POST per record to create. */
  function Writes(conn: Connector, path: string, updates: Value, creates: seq<Record>): seq<Request> {
    [BodyRequest(conn, "PATCH", path, updates)] + PostRequests(conn, path, creates)
  }

  /**
   `self._patch(path, update_list)` followed by the POST loop: the first
   request that raises ends the call. Only when every write is answered does
   the call return, with the settled records.
   */
  function Write(conn: Connector, server: Server, path: string, updates: Value, creates: seq<Record>,
                 finals: seq<Record>): (x: Exchange<seq<Record>>)
    ensures x.sent <= Writes(conn, path, updates, creates)
    ensures x.outcome.Success? <==> x.sent == Writes(conn, path, updates, creates) && Accepted(server, x.sent)
    ensures x.outcome.Failure? ==> !Accepted(server, x.sent)
    ensures x.outcome.Success? ==> x.outcome.value == finals
    ensures StopsAtRaise(server, x)
  {
    var patch := Patch(conn, server, path, updates, None);
    if patch.outcome.Failure? then Exchange(patch.sent, Failure(patch.outcome.error))
    else
      var posts := PostEach(conn, server, path, creates);
      assert (patch.sent + posts.sent)[1..] == posts.sent;
      var outcome := if posts.outcome.Failure? then Failure(posts.outcome.error) else Success(finals);
      StopsAtRaiseAfter(server, patch.sent, Exchange(posts.sent, outcome));
      Exchange(patch.sent + posts.sent, outcome)
  }

  /**
   The requests a create-or-update call makes when nothing goes wrong: the
   listing GET, one PATCH carrying the whole update list, then one POST per
   record to create, in order.
   */
  function Plan(api: NetboxApi, c: Collection, updates: seq<Record>, creates: seq<Record>): seq<Request> {
    var path := ListingPath(ListingOf(c));
    [GetRequest(api.conn, path), BodyRequest(api.conn, "PATCH", path, List(Objects(updates)))]
    + PostRequests(api.conn, path, creates)
  }

  /** A `None` listing aborts the call before any PATCH or POST. */
  lemma EmptyListingAborts(api: NetboxApi, server: Server, c: Collection, incoming: seq<Record>)
    requires Classify(server(GetRequest(api.conn, ListingPath(ListingOf(c))))) == Success(Null)
    ensures AddList(api, server, c, incoming) ==
            Exchange([GetRequest(api.conn, ListingPath(ListingOf(c)))], Failure(ValueError("Received empty response")))
  {
  }

  /**
   Once the listing is in and matching succeeds, the requests sent are a prefix
   of the plan built from the reference partition: the update list has one
   entry per pair of equal names, in incoming then existing order, each with
   the id of its record's last match; the create list is the incoming records
   that came without an id and that no existing record names. The PATCH thus
   always precedes every POST. When every PATCH and POST is answered without
   raising, exactly the plan is sent and the call succeeds.
   */
  lemma AddListFollowsPlan(api: NetboxApi, server: Server, c: Collection, incoming: seq<Record>,
                           listing: Value, existing: seq<Value>)
    requires Classify(server(GetRequest(api.conn, ListingPath(ListingOf(c))))) == Success(listing)
    requires Existing(listing, incoming) == Success(existing)
    requires Matching.MatchAll(incoming, existing).Success?
    ensures var x := AddList(api, server, c, incoming);
            var plan := Plan(api, c, Matching.ExpectedUpdates(incoming, existing), Matching.Unmatched(incoming, existing));
            && x.sent <= plan
            && (x.outcome.Success? <==> x.sent == plan && Accepted(server, plan[1..]))
            && StopsAtRaise(server, x)
            && (x.outcome.Success? ==>
                  && |x.outcome.value| == |incoming|
                  && forall i :: 0 <= i < |incoming| ==> x.outcome.value[i] == Matching.Settle(incoming[i], existing))
  {
    var path := ListingPath(ListingOf(c));
    var updates := Matching.ExpectedUpdates(incoming, existing);
    var creates := Matching.Unmatched(incoming, existing);
    var finals := Matching.MatchAll(incoming, existing).value.finals;
    ListingRead(api, server, c, incoming, listing);
    UpsertWrites(api.conn, server, path, listing, incoming, existing);
    Matching.PartitionSettles(incoming, existing);
    PlanIsGetThenWrites(api, server, c, updates, creates, finals);
  }

  /** The plan is the listing GET followed by the writes, so a prefix of the writes after the GET is a prefix of the plan. */
  lemma PlanIsGetThenWrites(api: NetboxApi, server: Server, c: Collection, updates: seq<Record>,
                            creates: seq<Record>, finals: seq<Record>)
    ensures var path := ListingPath(ListingOf(c));
            var w := Write(api.conn, server, path, List(Objects(updates)), creates, finals);
            var plan := Plan(api, c, updates, creates);
            && [GetRequest(api.conn, path)] + w.sent <= plan
            && (w.outcome.Success? <==> [GetRequest(api.conn, path)] + w.sent == plan && Accepted(server, plan[1..]))
  {
    var path := ListingPath(ListingOf(c));
    var w := Write(api.conn, server, path, List(Objects(updates)), creates, finals);
    var get := GetRequest(api.conn, path);
    var writes := Writes(api.conn, path, List(Objects(updates)), creates);
    assert Plan(api, c, updates, creates) == [get] + writes;
    assert ([get] + writes)[1..] == writes;
    assert ([get] + w.sent)[1..] == w.sent;
  }

  /** Once the listing is in, a create-or-update call goes on with its writes. */
  lemma ListingRead(api: NetboxApi, server: Server, c: Collection, incoming: seq<Record>, listing: Value)
    requires Classify(server(GetRequest(api.conn, ListingPath(ListingOf(c))))) == Success(listing)
    requires listing != Null
    ensures var rest := Upsert(api.conn, server, ListingPath(ListingOf(c)), listing, incoming);
            AddList(api, server, c, incoming) ==
            Exchange([GetRequest(api.conn, ListingPath(ListingOf(c)))] + rest.sent, rest.outcome)
  {
  }

  /**
   With no incoming record, `results` is never iterated: any listing holding a
   `results` key, whatever its value, leads to one PATCH of the empty list.
   */
  lemma NothingIncomingStillPatches(conn: Connector, server: Server, path: string, listing: Value)
    requires listing.Obj? && "results" in listing.fields
    ensures Upsert(conn, server, path, listing, []) == Write(conn, server, path, List([]), [], [])
  {
    assert Objects([]) == [];
  }

  /** Once matching succeeds, the writes are those of the reference partition. */
  lemma UpsertWrites(conn: Connector, server: Server, path: string, listing: Value,
                     incoming: seq<Record>, existing: seq<Value>)
    requires Existing(listing, incoming) == Success(existing)
    requires Matching.MatchAll(incoming, existing).Success?
    ensures Upsert(conn, server, path, listing, incoming) ==
            Write(conn, server, path, List(Objects(Matching.ExpectedUpdates(incoming, existing))),
                  Matching.Unmatched(incoming, existing), Matching.MatchAll(incoming, existing).value.finals)
  {
    Matching.PartitionSettles(incoming, existing);
    Matching.CreateListIsUnmatched(incoming, existing);
  }

  // ---------------------------------------------------------------------------
  // Map helpers and adapters
  // ---------------------------------------------------------------------------

  /**
   A map helper once its listing GET is answered: `None` (for the getters
   that pass it on) gives the empty map, anything else is filled by `key`.
   */
  function HelperMap(api: NetboxApi, server: Server, l: Listing, key: string): (x: Exchange<map<Value, Value>>)
    ensures x.sent == [GetRequest(api.conn, ListingPath(l))]
    ensures var got := GetListing(api, server, l).outcome;
            && (got.Failure? ==> x.outcome == Failure(got.error))
            && (got.Success? ==> (x.outcome.Success? <==> Adapters.Buildable(got.value, key)))
            && (x.outcome.Success? ==> got.Success? && Adapters.KeyedByLast(got.value, key, x.outcome.value))
  {
    var got := GetListing(api, server, l);
    if got.outcome.Failure? then Exchange(got.sent, Failure(got.outcome.error))
    else
      var m := Adapters.BuildMap(got.outcome.value, key);
      Adapters.BuildMapSucceedsIff(got.outcome.value, key);
      if m.Success? then
        Adapters.BuildMapLastWins(got.outcome.value, key);
        Exchange(got.sent, m)
      else Exchange(got.sent, m)
  }

  /**
   `_get_site_map_helper`: sites by `name`. A `None` listing gives the empty
   map; otherwise each site name maps to the id of the last site carrying it,
   and the helper raises exactly when some result lacks an `id` or a hashable
   `name`.
   */
  function SiteMap(api: NetboxApi, server: Server): (x: Exchange<map<Value, Value>>)
    ensures x.sent == [GetRequest(api.conn, ListingPath(Sites))]
    ensures var a := Classify(server(x.sent[0]));
            && (a.Failure? ==> x.outcome == Failure(a.error))
            && (a.Success? ==> (x.outcome.Success? <==> Adapters.Buildable(a.value, "name")))
            && (x.outcome.Success? ==> a.Success? && Adapters.KeyedByLast(a.value, "name", x.outcome.value))
  {
    HelperMap(api, server, Sites, "name")
  }

  /** `_get_device_map_helper`: device types by `model`, with the same rules. */
  function DeviceTypeMap(api: NetboxApi, server: Server): (x: Exchange<map<Value, Value>>)
    ensures x.sent == [GetRequest(api.conn, ListingPath(DeviceTypes))]
    ensures var a := Classify(server(x.sent[0]));
            && (a.Failure? ==> x.outcome == Failure(a.error))
            && (a.Success? ==> (x.outcome.Success? <==> Adapters.Buildable(a.value, "model")))
            && (x.outcome.Success? ==> a.Success? && Adapters.KeyedByLast(a.value, "model", x.outcome.value))
  {
    HelperMap(api, server, DeviceTypes, "model")
  }

  /**
   `_get_interface_map_helper`: devices by `name`. The listing comes from
   `get_devices`, which raises on `None`, so the helper's own fallback to an
   empty map is never reached.
   */
  function DeviceMap(api: NetboxApi, server: Server): (x: Exchange<map<Value, Value>>)
    ensures x.sent == [GetRequest(api.conn, ListingPath(Devices))]
    ensures var a := Classify(server(x.sent[0]));
            && (a == Success(Null) ==> x.outcome == Failure(ValueError("Received empty response")))
            && (a.Failure? ==> x.outcome == Failure(a.error))
            && (a.Success? && a.value != Null ==> (x.outcome.Success? <==> Adapters.Buildable(a.value, "name")))
            && (x.outcome.Success? ==> a.Success? && a.value != Null && Adapters.KeyedByLast(a.value, "name", x.outcome.value))
  {
    HelperMap(api, server, Devices, "name")
  }

  /**
   `adapt_forward_device_query`: fetch the site map, then the device-type map,
   then rewrite every entry. Both GETs go out even for an empty query; a site
   map that raises stops the call before the device types are asked for.
   */
  function AdaptDeviceQuery(api: NetboxApi, server: Server, query: seq<Record>): (x: Exchange<seq<Record>>)
    ensures x.sent <= [GetRequest(api.conn, ListingPath(Sites)), GetRequest(api.conn, ListingPath(DeviceTypes))]
    ensures |x.sent| == 2 <==> SiteMap(api, server).outcome.Success?
    ensures SiteMap(api, server).outcome.Failure? ==> x.outcome == Failure(SiteMap(api, server).outcome.error)
    ensures SiteMap(api, server).outcome.Success? && DeviceTypeMap(api, server).outcome.Failure? ==>
              x.outcome == Failure(DeviceTypeMap(api, server).outcome.error)
    ensures x.outcome.Success? <==>
            && SiteMap(api, server).outcome.Success? && DeviceTypeMap(api, server).outcome.Success?
            && forall i :: 0 <= i < |query| ==>
                 Adapters.DeviceResolvable(query[i], SiteMap(api, server).outcome.value, DeviceTypeMap(api, server).outcome.value)
    ensures x.outcome.Success? ==>
            && |x.sent| == 2
            && SiteMap(api, server).outcome.Success? && DeviceTypeMap(api, server).outcome.Success?
            && var sites := SiteMap(api, server).outcome.value;
               var types := DeviceTypeMap(api, server).outcome.value;
               && |x.outcome.value| == |query|
               && forall i :: 0 <= i < |query| ==>
                    Adapters.DeviceResolvable(query[i], sites, types) &&
                    Adapters.DeviceAdapted(query[i], x.outcome.value[i], sites, types, api.deviceRole)
  {
    var sites := SiteMap(api, server);
    if sites.outcome.Failure? then Exchange(sites.sent, Failure(sites.outcome.error))
    else
      var types := DeviceTypeMap(api, server);
      if types.outcome.Failure? then Exchange(sites.sent + types.sent, Failure(types.outcome.error))
      else
        Exchange(sites.sent + types.sent,
                 Adapters.AdaptDevices(query, sites.outcome.value, types.outcome.value, api.deviceRole))
  }

  /** `adapt_forward_interface_query`: fetch the device map, then rewrite every entry. */
  function AdaptInterfaceQuery(api: NetboxApi, server: Server, query: seq<Record>): (x: Exchange<seq<Record>>)
    ensures x.sent == [GetRequest(api.conn, ListingPath(Devices))]
    ensures DeviceMap(api, server).outcome.Failure? ==> x.outcome == Failure(DeviceMap(api, server).outcome.error)
    ensures x.outcome.Success? <==>
            && DeviceMap(api, server).outcome.Success?
            && forall i :: 0 <= i < |query| ==> Adapters.InterfaceResolvable(query[i], DeviceMap(api, server).outcome.value)
    ensures x.outcome.Success? ==>
            && DeviceMap(api, server).outcome.Success?
            && var devices := DeviceMap(api, server).outcome.value;
               && |x.outcome.value| == |query|
               && forall i :: 0 <= i < |query| ==>
                    Adapters.InterfaceResolvable(query[i], devices) &&
                    Adapters.InterfaceAdapted(query[i], x.outcome.value[i], devices)
  {
    var devices := DeviceMap(api, server);
    if devices.outcome.Failure? then Exchange(devices.sent, Failure(devices.outcome.error))
    else Exchange(devices.sent, Adapters.AdaptInterfaces(query, devices.outcome.value))
  }

  /** With no devices listed (`None`), even an empty interface query raises `ValueError`. */
  lemma InterfaceAdapterNeedsDevices(api: NetboxApi, server: Server)
    requires Classify(server(GetRequest(api.conn, ListingPath(Devices)))) == Success(Null)
    ensures AdaptInterfaceQuery(api, server, []).outcome == Failure(ValueError("Received empty response"))
  {
  }
}

=== FILE: pagination.dfy ===
/**
 The offset/limit loop of `ForwardAPI.run_nqe_query`. The HTTP round trip for
 one page is abstracted to a `Fetch`: the classified response (Python's value
 or exception) for the page requested at a given offset. The loop asks for
 offsets 0, 1000, 2000, ..., reads the total from the first page, and stops at
 the total or at the first page that carries no `items`.
 */
module Pagination {
  import opened Values

  /** The page size every request asks for; the configured `nqe_limit` plays no part. */
  const PageLimit: nat := 1000

  /** The classified response to the request for the page at an offset. */
  type Fetch = nat -> Result<Value>

  /** What the loop body makes of one response: stop quietly, or a page of items. */
  datatype Step = Stop | Page(items: seq<Value>)

  /** `p` occurs as a contiguous part of `s` (Python's `p in s` on strings). */
  function IsInfix(p: string, s: string): bool
    decreases |s|
  {
    p <= s || (|s| > 0 && IsInfix(p, s[1..]))
  }

  /**
   `response is None or "items" not in response`, followed by `response["items"]`
   being iterated by `extend`. `in` on a list tests its elements and on a string
   its substrings; anything that passes that test but is not a dictionary, or
   whose `items` cannot be iterated, raises. A string or dictionary `items`
   contributes its characters or keys.
   */
  function Inspect(resp: Value): (r: Result<Step>)
    ensures r == Success(Stop) <==>
              resp.Null? || (resp.Obj? && "items" !in resp.fields)
              || (resp.List? && Str("items") !in resp.items) || (resp.Str? && !IsInfix("items", resp.s))
    ensures r.Success? && r.value.Page? <==> resp.Obj? && "items" in resp.fields && Iterate(resp.fields["items"]).Success?
    ensures r.Success? && r.value.Page? ==> r.value.items == Iterate(resp.fields["items"]).value
    ensures resp.Obj? && "items" in resp.fields && resp.fields["items"].List? ==>
              r == Success(Page(resp.fields["items"].items))
    ensures resp.Obj? && "items" in resp.fields && resp.fields["items"].Str? ==>
              r == Success(Page(Chars(resp.fields["items"].s)))
    ensures resp.Obj? && "items" in resp.fields && resp.fields["items"].Obj? ==>
              r == Success(Page(Keys(resp.fields["items"].fields)))
  {
    match resp
    case Null => Success(Stop)
    case Obj(m) =>
      if "items" !in m then Success(Stop)
      else
        var items :- Iterate(m["items"]);
        Success(Page(items))
    case List(xs) => if Str("items") in xs then Failure(TypeMismatch) else Success(Stop)
    case Str(s) => if IsInfix("items", s) then Failure(TypeMismatch) else Success(Stop)
    case _ => Failure(TypeMismatch)
  }

  /**
   `response.get("totalNumItems", 0)` as the loop condition then compares it:
   an absent total is 0, a boolean compares as 0 or 1, and any other
   non-integer raises. The comparison raises for all of them but `null`, which
   Python re-reads on the next page instead; here `null` raises too.
   */
  function ReadTotal(resp: Value): (r: Result<int>)
    requires resp.Obj?
    ensures "totalNumItems" !in resp.fields ==> r == Success(0)
    ensures "totalNumItems" in resp.fields && resp.fields["totalNumItems"].Int? ==>
              r == Success(resp.fields["totalNumItems"].i)
    ensures "totalNumItems" in resp.fields && resp.fields["totalNumItems"].Bool? ==>
              r == Success(if resp.fields["totalNumItems"].b then 1 else 0)
    ensures "totalNumItems" in resp.fields && !resp.fields["totalNumItems"].Int? && !resp.fields["totalNumItems"].Bool? ==>
              r == Failure(TypeMismatch)
    ensures r.Failure? ==> "totalNumItems" in resp.fields && !resp.fields["totalNumItems"].Int?
  {
    if "totalNumItems" !in resp.fields then Success(0)
    else match resp.fields["totalNumItems"]
      case Int(n) => Success(n)
      case Bool(b) => Success(if b then 1 else 0)
      case _ => Failure(TypeMismatch)
  }

  /** The offsets requested, in order, and the items returned or the exception raised. */
  datatype Walk = Walk(offsets: seq<nat>, result: Result<seq<Value>>)

  /** The items a response contributes: those of a page, nothing otherwise. */
  function ItemsAt(r: Result<Value>): seq<Value> {
    if r.Success? && Inspect(r.value).Success? && Inspect(r.value).value.Page? then
      Inspect(r.value).value.items
    else []
  }

  /** The items of the pages at `offsets`, concatenated in request order. */
  function Gather(fetch: Fetch, offsets: seq<nat>): seq<Value> {
    if |offsets| == 0 then [] else ItemsAt(fetch(offsets[0])) + Gather(fetch, offsets[1..])
  }

  /**
   The `while total_items is None or offset < total_items` loop from `offset`
   on; `total` is `None` until the first page has been read.
   */
  function Loop(fetch: Fetch, offset: nat, total: Option<int>): (w: Walk)
    decreases (if total.None? then 1 else 0),
              (if total.Some? && offset < total.value then total.value - offset else 0)
    ensures forall i :: 0 <= i < |w.offsets| ==> w.offsets[i] == offset + PageLimit * i
    ensures |w.offsets| == 0 <==> total.Some? && offset >= total.value
    ensures w.result.Success? ==> w.result.value == Gather(fetch, w.offsets)
    ensures w.result.Success? ==> forall i :: 0 <= i < |w.offsets| ==> Reading(fetch(w.offsets[i])).Success?
    ensures forall i :: 0 <= i < |w.offsets| && fetch(w.offsets[i]).Failure? ==>
              i == |w.offsets| - 1 && w.result == Failure(fetch(w.offsets[i]).error)
  {
    if total.Some? && offset >= total.value then Walk([], Success([]))
    else
      match fetch(offset)
      case Failure(e) => Walk([offset], Failure(e))
      case Success(resp) =>
        match Inspect(resp)
        case Failure(e) => Walk([offset], Failure(e))
        case Success(Stop) => Walk([offset], Success([]))
        case Success(Page(items)) =>
          var known := if total.Some? then Success(total.value) else ReadTotal(resp);
          if known.Failure? then Walk([offset], Failure(known.error))
          else
            Prepend(fetch, offset, items, Loop(fetch, offset + PageLimit, Some(known.value)))
  }

  /**
   A page read at `offset` followed by the walk from the next offset: the
   page's items go in front of the rest's, and an exception from the rest is
   the walk's.
   */
  function Prepend(fetch: Fetch, offset: nat, items: seq<Value>, rest: Walk): (w: Walk)
    requires Reading(fetch(offset)) == Success(Page(items))
    requires forall i :: 0 <= i < |rest.offsets| ==> rest.offsets[i] == offset + PageLimit + PageLimit * i
    requires rest.result.Success? ==> rest.result.value == Gather(fetch, rest.offsets)
    requires rest.result.Success? ==> forall i :: 0 <= i < |rest.offsets| ==> Reading(fetch(rest.offsets[i])).Success?
    requires forall i :: 0 <= i < |rest.offsets| && fetch(rest.offsets[i]).Failure? ==>
               i == |rest.offsets| - 1 && rest.result == Failure(fetch(rest.offsets[i]).error)
    ensures |w.offsets| == 1 + |rest.offsets|
    ensures forall i :: 0 <= i < |w.offsets| ==> w.offsets[i] == offset + PageLimit * i
    ensures w.result.Success? ==> w.result.value == Gather(fetch, w.offsets)
    ensures w.result.Success? ==> forall i :: 0 <= i < |w.offsets| ==> Reading(fetch(w.offsets[i])).Success?
    ensures forall i :: 0 <= i < |w.offsets| && fetch(w.offsets[i]).Failure? ==>
              i == |w.offsets| - 1 && w.result == Failure(fetch(w.offsets[i]).error)
  {
    var offsets := [offset] + rest.offsets;
    assert offsets[1..] == rest.offsets;
    Walk(offsets, if rest.result.Success? then Success(items + rest.result.value) else rest.result)
  }

  /** The whole loop: it always asks for the first page, at offset 0. */
  function Run(fetch: Fetch): (w: Walk)
    ensures |w.offsets| >= 1 && w.offsets[0] == 0
    ensures forall i :: 0 <= i < |w.offsets| ==> w.offsets[i] == PageLimit * i
    ensures w.result.Success? ==> w.result.value == Gather(fetch, w.offsets)
    ensures w.result.Success? ==> forall i :: 0 <= i < |w.offsets| ==> Reading(fetch(w.offsets[i])).Success?
    ensures forall i :: 0 <= i < |w.offsets| && fetch(w.offsets[i]).Failure? ==>
              i == |w.offsets| - 1 && w.result == Failure(fetch(w.offsets[i]).error)
  {
    Loop(fetch, 0, None)
  }

  /** The response at `o` is a page of items. */
  ghost predicate Answered(fetch: Fetch, o: nat) {
    fetch(o).Success? && Inspect(fetch(o).value).Success? && Inspect(fetch(o).value).value.Page?
  }

  /** The response at `o` is one the loop stops at without raising. */
  ghost predicate Missing(fetch: Fetch, o: nat) {
    fetch(o).Success? && Inspect(fetch(o).value) == Success(Stop)
  }

  /** Past the first page: with every page answered, ceil((total - offset) / 1000) requests. */
  lemma {:induction false} LaterPagesCount(fetch: Fetch, offset: nat, total: int)
    requires forall o: nat :: Answered(fetch, o)
    ensures var w := Loop(fetch, offset, Some(total));
            && w.result.Success?
            && |w.offsets| == (if offset >= total then 0 else (total - offset + PageLimit - 1) / PageLimit)
    decreases if offset < total then total - offset else 0
  {
    if offset < total {
      assert Answered(fetch, offset);
      LaterPagesCount(fetch, offset + PageLimit, total);
    }
  }

  /**
   With every page answered and a first-page total of `n`, the loop makes
   exactly max(1, ceil(n / 1000)) requests and raises nothing.
   */
  lemma AllPagesAnswered(fetch: Fetch, n: int)
    requires forall o: nat :: Answered(fetch, o)
    requires fetch(0).Success? && fetch(0).value.Obj? && ReadTotal(fetch(0).value) == Success(n)
    ensures var w := Run(fetch);
            && w.result.Success?
            && |w.offsets| == (if n <= PageLimit then 1 else (n + PageLimit - 1) / PageLimit)
  {
    assert Answered(fetch, 0);
    LaterPagesCount(fetch, PageLimit, n);
  }

  /**
   A missing page `k` pages after `offset` ends the loop quietly: the earlier
   pages' items are kept (`Loop`'s result is their concatenation) and no
   further page is requested.
   */
  lemma MissingPageStops(fetch: Fetch, offset: nat, total: int, k: nat)
    requires forall i :: 0 <= i < k ==> Answered(fetch, offset + PageLimit * i)
    requires Missing(fetch, offset + PageLimit * k)
    requires offset + PageLimit * k < total
    ensures var w := Loop(fetch, offset, Some(total));
            && w.result.Success?
            && |w.offsets| == k + 1
  {
    PagesThenFrom((o: nat) => Answered(fetch, o), (o: nat) => Missing(fetch, o), offset, k);
    ToMissingAfter(fetch, offset, total, k);
    StopsAfter(fetch, offset, total, k);
  }

  /** `p` holds at the `k` offsets a page apart from `offset` on, and `q` at the one after them. */
  ghost predicate PagesThen(p: nat -> bool, q: nat -> bool, offset: nat, k: nat)
    decreases k
  {
    if k == 0 then q(offset) else p(offset) && PagesThen(p, q, offset + PageLimit, k - 1)
  }

  /** The quantified form of `PagesThen`. */
  lemma {:induction false} PagesThenFrom(p: nat -> bool, q: nat -> bool, offset: nat, k: nat)
    requires forall i :: 0 <= i < k ==> p(offset + PageLimit * i)
    requires q(offset + PageLimit * k)
    ensures PagesThen(p, q, offset, k)
    decreases k
  {
    if k > 0 {
      ShiftPages(p, offset, k);
      assert offset + PageLimit + PageLimit * (k - 1) == offset + PageLimit * k;
      PagesThenFrom(p, q, offset + PageLimit, k - 1);
    }
  }

  /** Whatever holds at the `k` offsets from `offset` on holds at the `k - 1` offsets from the next one. */
  lemma ShiftPages(p: nat -> bool, offset: nat, k: nat)
    requires k > 0
    requires forall i :: 0 <= i < k ==> p(offset + PageLimit * i)
    ensures p(offset)
    ensures forall i :: 0 <= i < k - 1 ==> p(offset + PageLimit + PageLimit * i)
  {
    assert offset + PageLimit * 0 == offset;
    forall i | 0 <= i < k - 1
      ensures p(offset + PageLimit + PageLimit * i)
    {
      assert offset + PageLimit + PageLimit * i == offset + PageLimit * (i + 1);
    }
  }

  /** Below the total, `k` answered pages from `offset` on and then a missing one. */
  ghost predicate MissingAfter(fetch: Fetch, offset: nat, total: int, k: nat)
    decreases k
  {
    && offset < total
    && if k == 0 then Missing(fetch, offset)
       else Answered(fetch, offset) && MissingAfter(fetch, offset + PageLimit, total, k - 1)
  }

  lemma {:induction false} ToMissingAfter(fetch: Fetch, offset: nat, total: int, k: nat)
    requires PagesThen((o: nat) => Answered(fetch, o), (o: nat) => Missing(fetch, o), offset, k)
    requires offset + PageLimit * k < total
    ensures MissingAfter(fetch, offset, total, k)
    decreases k
  {
    if k > 0 {
      assert offset + PageLimit + PageLimit * (k - 1) == offset + PageLimit * k;
      ToMissingAfter(fetch, offset + PageLimit, total, k - 1);
    }
  }

  lemma {:induction false} StopsAfter(fetch: Fetch, offset: nat, total: int, k: nat)
    requires MissingAfter(fetch, offset, total, k)
    ensures var w := Loop(fetch, offset, Some(total));
            && w.result.Success?
            && |w.offsets| == k + 1
    decreases k
  {
    if k > 0 {
      StopsAfter(fetch, offset + PageLimit, total, k - 1);
      AnsweredPageContinues(fetch, offset, total, k);
    } else {
      MissingPageEnds(fetch, offset, total);
    }
  }

  /** A missing page below the total ends the loop there, quietly. */
  lemma MissingPageEnds(fetch: Fetch, offset: nat, total: int)
    requires Missing(fetch, offset)
    requires offset < total
    ensures Loop(fetch, offset, Some(total)) == Walk([offset], Success([]))
  {
  }

  /**
   An answered page below the total is kept and the loop goes on at the next
   offset, so a walk of `k` pages from there is one of `k + 1` pages from here.
   */
  lemma AnsweredPageContinues(fetch: Fetch, offset: nat, total: int, k: nat)
    requires Answered(fetch, offset)
    requires offset < total
    requires var rest := Loop(fetch, offset + PageLimit, Some(total));
             rest.result.Success? && |rest.offsets| == k
    ensures var w := Loop(fetch, offset, Some(total));
            w.result.Success? && |w.offsets| == k + 1
  {
  }

  /** What the loop makes of a response, before it looks at the total. */
  function Reading(r: Result<Value>): Result<Step> {
    if r.Failure? then Failure(r.error) else Inspect(r.value)
  }

  /**
   Once the total is known, later pages' `totalNumItems` are never read: two
   servers whose pages read alike give the same walk, whatever totals the
   later pages report.
   */
  lemma {:induction false} LaterTotalsIgnored(f: Fetch, g: Fetch, offset: nat, total: int)
    requires forall o: nat :: Reading(f(o)) == Reading(g(o))
    ensures Loop(f, offset, Some(total)) == Loop(g, offset, Some(total))
    decreases if offset < total then total - offset else 0
  {
    if offset < total {
      assert Reading(f(offset)) == Reading(g(offset));
      LaterTotalsIgnored(f, g, offset + PageLimit, total);
      KnownTotalStep(f, offset, total);
      KnownTotalStep(g, offset, total);
    }
  }

  /** One turn of the loop once the total is known, given the walk from the next offset. */
  function Continue(r: Result<Step>, offset: nat, rest: Walk): Walk {
    match r
    case Failure(e) => Walk([offset], Failure(e))
    case Success(Stop) => Walk([offset], Success([]))
    case Success(Page(items)) =>
      Walk([offset] + rest.offsets, if rest.result.Success? then Success(items + rest.result.value) else rest.result)
  }

  /** Below a known total, the loop reads one page and goes on from the next offset. */
  lemma KnownTotalStep(fetch: Fetch, offset: nat, total: int)
    requires offset < total
    ensures Loop(fetch, offset, Some(total)) ==
            Continue(Reading(fetch(offset)), offset, Loop(fetch, offset + PageLimit, Some(total)))
  {
  }

  /** A missing first page ends the loop with an empty result and no error. */
  lemma MissingFirstPage(fetch: Fetch)
    requires Missing(fetch, 0)
    ensures Run(fetch) == Walk([0], Success([]))
  {
  }

  /** A server whose first page reports one item but carries the same item twice. */
  function DuplicatedPage(o: nat): Result<Value> {
    if o == 0 then Success(Obj(map["totalNumItems" := Int(1), "items" := List([Int(7), Int(7)])]))
    else Success(Null)
  }

  /** Neither deduplication nor truncation to the reported total: both copies come back. */
  lemma NoDedupNoTruncation()
    ensures Run(DuplicatedPage) == Walk([0], Success([Int(7), Int(7)]))
  {
    assert Inspect(DuplicatedPage(0).value) == Success(Page([Int(7), Int(7)]));
    assert ReadTotal(DuplicatedPage(0).value) == Success(1);
    assert Loop(DuplicatedPage, PageLimit, Some(1)) == Walk([], Success([]));
    assert [0] + [] == [0] && [Int(7), Int(7)] + [] == [Int(7), Int(7)];
  }
}

=== FILE: values.dfy ===
/**
 JSON values as the Python code sees them after decoding, the failure-compatible
 wrappers used throughout the model, and the few pieces of Python dictionary
 behaviour (subscripting, hashability) that the rest of the model relies on.

 Python's `None` and JSON `null` are the same object once a body is decoded, so
 `Null` stands for both.
 */
module Values {

  datatype Value =
    | Null
    | Bool(b: bool)
    | Int(i: int)
    | Str(s: string)
    | List(items: seq<Value>)
    | Obj(fields: map<string, Value>)

  /** A record as the code manipulates it: a dictionary with string keys. */
  type Record = map<string, Value>

  datatype Option<T> = None | Some(value: T) {
    function GetOr(default: T): (r: T)
      ensures Some? ==> r == value
      ensures None? ==> r == default
    {
      match this
      case Some(v) => v
      case None => default
    }
  }

  /** The Python exceptions the modelled code can raise or let escape. */
  datatype Error =
    | KeyError(key: Value)            // a missing dictionary key
    | TypeMismatch                    // TypeError / AttributeError: a value of the wrong shape
    | ValueError(message: string)
    | RequestException(message: string)
    | JsonDecodeError                 // a body announced as JSON that does not parse
    | ConnectionError                 // the HTTP library could not obtain a response

  datatype Result<T> = Success(value: T) | Failure(error: Error) {
    predicate IsFailure() {
      Failure?
    }

    function PropagateFailure<U>(): (r: Result<U>)
      requires Failure?
      ensures r.Failure? && r.error == error
    {
      Failure(error)
    }

    function Extract(): T
      requires Success?
    {
      value
    }
  }

  /** Values Python can use as dictionary keys (lists and dicts are unhashable). */
  predicate Hashable(v: Value) {
    !v.List? && !v.Obj?
  }

  /** `v[key]` for a string key, as Python evaluates it on a decoded JSON value. */
  function Index(v: Value, key: string): (r: Result<Value>)
    ensures r.Success? <==> v.Obj? && key in v.fields
    ensures r.Success? ==> r.value == v.fields[key]
    ensures v.Obj? && key !in v.fields ==> r == Failure(KeyError(Str(key)))
    ensures !v.Obj? ==> r == Failure(TypeMismatch)
  {
    match v
    case Obj(m) => if key in m then Success(m[key]) else Failure(KeyError(Str(key)))
    case _ => Failure(TypeMismatch)
  }

  /** `record[key]` on a dictionary the code built itself. */
  function Field(d: Record, key: string): (r: Result<Value>)
    ensures r.Success? <==> key in d
    ensures r.Success? ==> r.value == d[key]
    ensures r.Failure? ==> r.error == KeyError(Str(key))
  {
    if key in d then Success(d[key]) else Failure(KeyError(Str(key)))
  }

  /** `table[key]` on a dictionary whose keys are arbitrary hashable values. */
  function Lookup(table: map<Value, Value>, key: Value): (r: Result<Value>)
    ensures r.Success? <==> Hashable(key) && key in table
    ensures r.Success? ==> r.value == table[key]
    ensures !Hashable(key) ==> r == Failure(TypeMismatch)
    ensures Hashable(key) && key !in table ==> r == Failure(KeyError(key))
  {
    if !Hashable(key) then Failure(TypeMismatch)
    else if key in table then Success(table[key])
    else Failure(KeyError(key))
  }

  // ---------------------------------------------------------------------------
  // Iteration: `for x in v`
  // ---------------------------------------------------------------------------

  /** `a <= b` on Python strings: code-point order, a prefix first. */
  predicate Precedes(a: string, b: string)
    decreases |a|
  {
    |a| == 0 || (|b| > 0 && (a[0] < b[0] || (a[0] == b[0] && Precedes(a[1..], b[1..]))))
  }

  lemma {:induction false} PrecedesTotal(a: string, b: string)
    ensures Precedes(a, b) || Precedes(b, a)
    decreases |a|
  {
    if |a| > 0 && |b| > 0 && a[0] == b[0] {
      PrecedesTotal(a[1..], b[1..]);
    }
  }

  lemma {:induction false} PrecedesAntisymmetric(a: string, b: string)
    requires Precedes(a, b) && Precedes(b, a)
    ensures a == b
    decreases |a|
  {
    if |a| > 0 {
      PrecedesAntisymmetric(a[1..], b[1..]);
      assert a == [a[0]] + a[1..] && b == [b[0]] + b[1..];
    }
  }

  lemma {:induction false} PrecedesTransitive(a: string, b: string, c: string)
    requires Precedes(a, b) && Precedes(b, c)
    ensures Precedes(a, c)
    decreases |a|
  {
    if |a| > 0 && a[0] == b[0] && b[0] == c[0] {
      PrecedesTransitive(a[1..], b[1..], c[1..]);
    }
  }

  /** `m` comes first in `s`. */
  predicate IsLeast(s: set<string>, m: string) {
    m in s && forall x :: x in s ==> Precedes(m, x)
  }

  /** A nonempty set of strings has a first element, and only one. */
  lemma {:induction false} LeastExists(s: set<string>)
    requires s != {}
    ensures exists m :: IsLeast(s, m)
    ensures forall a, b :: IsLeast(s, a) && IsLeast(s, b) ==> a == b
    decreases |s|
  {
    forall a, b | IsLeast(s, a) && IsLeast(s, b)
      ensures a == b
    {
      PrecedesAntisymmetric(a, b);
    }
    var y :| y in s;
    PrecedesTotal(y, y);
    if s - {y} == {} {
      forall x | x in s
        ensures Precedes(y, x)
      {
        assert x !in s - {y};
      }
      assert IsLeast(s, y);
    } else {
      LeastExists(s - {y});
      var m :| IsLeast(s - {y}, m);
      PrecedesTotal(y, m);
      if Precedes(y, m) {
        forall x | x in s
          ensures Precedes(y, x)
        {
          if x != y {
            PrecedesTransitive(y, m, x);
          }
        }
        assert IsLeast(s, y);
      } else {
        assert IsLeast(s, m);
      }
    }
  }

  /** The first string of a nonempty set. */
  function Least(s: set<string>): (m: string)
    requires s != {}
    ensures m in s && forall x :: x in s ==> Precedes(m, x)
  {
    LeastExists(s);
    var m :| IsLeast(s, m);
    m
  }

  /** The strings of `s`, each once, in code-point order. */
  function SortedKeys(s: set<string>): (ks: seq<string>)
    ensures |ks| == |s|
    ensures forall k :: k in s <==> k in ks
    ensures forall i, j :: 0 <= i < j < |ks| ==> Precedes(ks[i], ks[j])
    decreases |s|
  {
    if s == {} then []
    else
      var m := Least(s);
      var rest := SortedKeys(s - {m});
      SortedCons(m, rest, s);
      [m] + rest
  }

  /** Putting the first string of `s` before the sorted rest of `s` keeps the order. */
  lemma SortedCons(m: string, rest: seq<string>, s: set<string>)
    requires m in s && forall x :: x in s ==> Precedes(m, x)
    requires |rest| == |s - {m}|
    requires forall k :: k in s - {m} <==> k in rest
    requires forall i, j :: 0 <= i < j < |rest| ==> Precedes(rest[i], rest[j])
    ensures |[m] + rest| == |s|
    ensures forall k :: k in s <==> k in [m] + rest
    ensures forall i, j :: 0 <= i < j < |[m] + rest| ==> Precedes(([m] + rest)[i], ([m] + rest)[j])
  {
    var ks := [m] + rest;
    forall i, j | 0 <= i < j < |ks|
      ensures Precedes(ks[i], ks[j])
    {
      assert ks[j] == rest[j - 1];
      if i > 0 {
        assert ks[i] == rest[i - 1];
      } else {
        assert rest[j - 1] in rest;
      }
    }
  }

  /**
   Python's `for x in v`: a list yields its elements, a string its characters as
   one-character strings, and a dictionary its keys; `None`, booleans and
   integers raise `TypeError`. The keys come in code-point order here, where
   Python keeps insertion order, which a `map` does not record.
   */
  function Iterate(v: Value): (r: Result<seq<Value>>)
    ensures r.Success? <==> v.List? || v.Str? || v.Obj?
    ensures r.Failure? ==> r.error == TypeMismatch
    ensures v.List? ==> r == Success(v.items)
    ensures v.Str? ==> r == Success(Chars(v.s))
    ensures v.Obj? ==> r == Success(Keys(v.fields))
  {
    match v
    case List(xs) => Success(xs)
    case Str(s) => Success(Chars(s))
    case Obj(m) => Success(Keys(m))
    case _ => Failure(TypeMismatch)
  }

  /** The characters of a string, each as a one-character string. */
  function Chars(s: string): (vs: seq<Value>)
    ensures |vs| == |s|
    ensures forall i :: 0 <= i < |s| ==> vs[i] == Str([s[i]])
  {
    seq(|s|, i requires 0 <= i < |s| => Str([s[i]]))
  }

  /** What a `for` loop sees: a string's characters in order, a dictionary's keys each once. */
  lemma IterateContents(v: Value)
    ensures v.Str? ==> Iterate(v).Success? && |Iterate(v).value| == |v.s| &&
                       forall i :: 0 <= i < |v.s| ==> Iterate(v).value[i] == Str([v.s[i]])
    ensures v.Obj? ==> Iterate(v).Success? && |Iterate(v).value| == |v.fields| &&
                       (forall i :: 0 <= i < |Iterate(v).value| ==> Iterate(v).value[i].Str? && Iterate(v).value[i].s in v.fields) &&
                       forall k :: k in v.fields ==> Str(k) in Iterate(v).value
  {
  }

  /** The keys of a dictionary, each once, as strings. */
  function Keys(m: map<string, Value>): (vs: seq<Value>)
    ensures |vs| == |m|
    ensures forall i :: 0 <= i < |vs| ==> vs[i].Str? && vs[i].s in m
    ensures forall k :: k in m ==> Str(k) in vs
  {
    var ks := SortedKeys(m.Keys);
    var vs := seq(|ks|, i requires 0 <= i < |ks| => Str(ks[i]));
    assert forall k :: k in m ==> k in ks;
    assert forall i :: 0 <= i < |ks| ==> vs[i] == Str(ks[i]);
    vs
  }

  /** The records of a sink listing are addressed by their `field` value. */
  predicate HasKey(e: Value, field: string, key: Value) {
    e.Obj? && field in e.fields && e.fields[field] == key
  }

  /** The `id` a sink record carries, or `Null` when it carries none. */
  function IdOf(e: Value): Value {
    if e.Obj? && "id" in e.fields then e.fields["id"] else Null
  }

  /** The position of the LAST record of `es` whose `field` equals `key`. */
  ghost predicate IsLastWith(es: seq<Value>, field: string, key: Value, j: int) {
    && 0 <= j < |es|
    && HasKey(es[j], field, key)
    && forall k :: j < k < |es| ==> !HasKey(es[k], field, key)
  }

  /**
   The id of the last record of `es` whose `field` equals `key`: the reference
   definition of "later entries overwrite earlier ones". It looks at the tail
   first and falls back to the head only when the tail has no such record.
   */
  function LastId(es: seq<Value>, field: string, key: Value): (r: Option<Value>)
    ensures r.None? <==> forall j :: 0 <= j < |es| ==> !HasKey(es[j], field, key)
    ensures r.Some? ==> exists j :: IsLastWith(es, field, key, j) && r.value == IdOf(es[j])
  {
    if |es| == 0 then None
    else
      var later := LastId(es[1..], field, key);
      if later.Some? then
        assert exists j :: IsLastWith(es, field, key, j) && later.value == IdOf(es[j]) by {
          var j :| IsLastWith(es[1..], field, key, j) && later.value == IdOf(es[1..][j]);
          assert IsLastWith(es, field, key, j + 1);
        }
        later
      else if HasKey(es[0], field, key) then
        assert IsLastWith(es, field, key, 0);
        Some(IdOf(es[0]))
      else
        assert forall j :: 1 <= j < |es| ==> es[j] == es[1..][j - 1];
        None
  }
}
